=== FILE: README.md ===
# GBEmu core in Dafny

A model of the emulation core of GBEmu, a Game Boy (DMG) emulator written in
C++. It covers:

- the processor `GBCPU`: the register file, the fetch and stack helpers,
  every implemented instruction handler, the primary dispatcher `Exec_`, the
  0xCB table and the `optime_` countdown of `DoMachineCycle`;
- the address router `GBVirtualMemory` and the GPU's video memory it writes;
- the cartridge header decoding (`GetCartROMSize`, `CreateMBC`,
  `LoadCartridgeROM`, `GBCartridge`);
- the console `DMGGameBoy`: the boot image check, construction, `Start`,
  the timing driver `Update` and `LoadCartridge`.

Every `throw std::runtime_error` becomes a `Fault` inside a `Result`. A
faulting operation keeps the effects that happened before the throw:
a PC already advanced, an SP already lowered, a byte already stored into the
video memory mirror.

Layout:

- `bits.dfy`: `uint8_t`/`uint16_t` values as integer subset types, and AND and
  XOR defined bit by bit.
- `faults.dfy`: the faults and `Result`.
- `registers.dfy`: the six `Register_` union cells with their word and byte
  views. The layout is little-endian, so A, B, D and H are `bytes[0]`, the
  low byte of their pair.
- `memory.dfy`: the router as pure functions (`Read8`, `Read16`, `Write8`,
  `Write16`). Also the `Gpu` and `VirtualMemory` classes, whose `Set8`/`Set16`
  update the video memory array in place and are proved equal to those
  functions.
- `cartridge.dfy`: the header tables and the load-time checks.
- `instructions.dfy`: the instruction set as functions over a `Machine`
  value. This is the specification of the processor.
- `processor.dfy`: the class `Cpu`, holding the `registers_` array, `opcode_`
  and `optime_`. Each method mutates them in place and is proved to reach
  exactly the state the matching function of `Instructions` describes.
- `instruction_facts.dfy`: what the instruction set guarantees. This covers
  the countdown, flag results, CALL and the stack, JR NZ, loads and stores,
  unknown opcodes, and an invariant of the flag register.
- `console.dfy`: `GBConnectors` and `DMGGameBoy`, with the tick arithmetic of
  `Update` and lemmas about series of updates.

Where the C++ code differs from the DMG hardware, the model follows the code:

- With SP = 0xFFFE, the value the DMG boot ROM sets, CALL lowers SP to
  0xFFFC, which the router cannot store to, so CALL throws
  (`InstructionFacts.CallFromHighStackFaults`).
- Work RAM (0xC000-0xDFFF) cannot be read or written: the router has no case
  for it, so every access throws.
- `LD (0xFF00+n),A` and `LD (0xFF00+C),A` always throw, because the whole
  high page falls into the router's throwing default
  (`InstructionFacts.HighPageStoresFault`).
- `INC` sets Z from A rather than from its operand, and never sets H. The
  half-carry test `op & 0x00FF == 0` parses as `op & (0x00FF == 0)`
  (`InstructionFacts.IncFacts`, `InstructionFacts.IncZeroTestsA`).
- A `JR NZ` that is not taken leaves the displacement byte unread, so the
  next fetch decodes it as an opcode (`InstructionFacts.JrNzNotTaken`).
- A store into the mirror 0xE000-0xFDFF changes video memory and then
  throws, because the `case 0xE000/0xF000` arm falls through into the
  throwing default (`Memory.Write8`, `InstructionFacts.LdHlStoreFacts`).

## Model

| member | source | states |
|---|---|---|
| Registers.WithByte | GameboyEmu/gameboy.hpp:76-80 | storing through one byte of a union cell makes that byte read back and leaves the other byte unchanged |
| Registers.SetWord | GameboyEmu/cpu.cpp:8-19 | a store through a word name reads back, sets both of its byte views, and leaves every other cell and every byte of other pairs unchanged |
| Registers.SetByte | GameboyEmu/cpu.cpp:21-28 | a store through a byte name reads back and leaves every other byte name (including its partner in the same cell) and every other cell unchanged |
| Registers.ByteNames | GameboyEmu/cpu.cpp:21-28 | A and F are the low and high bytes of AF; B, D and H are the low bytes and C, E and L the high bytes of BC, DE and HL |
| Registers.WordFromBytes | GameboyEmu/gameboy.hpp:76-80 | a cell's word equals its `bytes[0]` plus 256 times its `bytes[1]` |
| Memory.Band | GameboyEmu/memory.cpp:104 | `addr & 0xF000` is the 4 KiB-aligned band holding the address's low 16 bits |
| Memory.Read8 | GameboyEmu/memory.cpp:103-122 | boot image at 0x0000-0x00FF, video memory at 0x8000-0x9FFF and mirrored at 0xE000-0xFDFF, 0 at 0xFF26; every other address faults, and success holds exactly on those ranges |
| Memory.Read16 | GameboyEmu/memory.cpp:124-126 | succeeds exactly when both byte reads do, and gives low + 256 * high |
| Memory.Write8 | GameboyEmu/memory.cpp:128-146 | succeeds exactly on 0x8000-0x9FFF; a mirror address stores and still faults; any other address faults with video memory unchanged |
| Memory.Write16 | GameboyEmu/memory.cpp:148-151 | succeeds exactly when both byte addresses are in 0x8000-0x9FFF, and then holds the old contents with exactly the low byte at `addr` and the high byte at `addr + 1` replaced; a failed first store skips the second, leaving that store's contents and fault; at 0x9FFF the low byte is stored and the high-byte store at 0xA000 fails with `WriteFault(0xA000)` |
| Memory.Write16ThenRead16 | GameboyEmu/memory.cpp:124-151 | a word stored in video memory reads back, and only its two bytes change |
| Memory.Gpu.constructor | GameboyEmu/gameboy.hpp:46 | video memory is 8 KiB of zeros |
| Memory.VirtualMemory.constructor | GameboyEmu/memory.cpp:100-101 | the router keeps the boot image and the GPU it was given |
| Memory.VirtualMemory.Get8 | GameboyEmu/memory.cpp:103-122 | the class's read is `Read8` over the boot image and the GPU's current video memory array |
| Memory.VirtualMemory.Get16 | GameboyEmu/memory.cpp:124-126 | the class's word read is `Read16` over the boot image and the GPU's current video memory array |
| Memory.VirtualMemory.Set8 | GameboyEmu/memory.cpp:128-146 | the in-place store leaves the array and outcome that `Write8` describes |
| Memory.VirtualMemory.Set16 | GameboyEmu/memory.cpp:148-151 | the two in-place stores leave the array and outcome that `Write16` describes |
| Cartridge.RomSizeOf | GameboyEmu/memory.cpp:20-49 | codes 0x00-0x08 and 0x52-0x54 decode to a multiple of 32 KiB between 32 KiB and 8 MiB; every other code is `InvalidRomSize` |
| Cartridge.RomSizeTable | GameboyEmu/memory.cpp:22-45 | codes 0-8 give 32 KiB * 2^code; 0x52-0x54 give 1179648, 1310720 and 1572864 bytes |
| Cartridge.GetCartRomSize | GameboyEmu/memory.cpp:20-21 | decodes the byte at 0x0148; an image too short to hold it faults |
| Cartridge.RamSizeOf | GameboyEmu/memory.cpp:81-98 | codes 0-5 decode to a multiple of 2 KiB of at most 128 KiB; any other code is `InvalidRamSize` |
| Cartridge.RamSizeTable | GameboyEmu/memory.cpp:81-98 | codes 0-5 give 0, 2, 8, 32, 128 and 64 KiB; any other code is `InvalidRamSize` |
| Cartridge.CreateMbc | GameboyEmu/memory.cpp:51-61 | succeeds exactly when the byte at 0x0147 is 0x00; otherwise `UnsupportedMbc` |
| Cartridge.LoadCartridgeRom | GameboyEmu/memory.cpp:63-73 | accepts the image exactly when its length equals the size its header declares; a readable header with the wrong length is `RomSizeMismatch`; a size code that fails to decode passes its own fault on |
| Cartridge.NewCart | GameboyEmu/memory.cpp:75-76 | a cartridge exists exactly when the size check and then the controller check pass, and it holds the image; a rejected image carries the size check's fault, or `UnsupportedMbc` when only the controller check fails |
| Cartridge.Title | GameboyEmu/memory.cpp:78 | the 16 bytes starting at 0x0134 |
| Cartridge.CartRomSize | GameboyEmu/memory.cpp:79 | for a loaded cartridge it is the image length |
| Cartridge.CartRamSize | GameboyEmu/memory.cpp:81-98 | for a loaded cartridge it succeeds exactly when the byte at 0x0149 is at most 5, and then gives that code's size from the RAM table; otherwise it is `InvalidRamSize` |
| Cartridge.ShortImageRejected | GameboyEmu/memory.cpp:68-69 | a 16 KiB image whose header declares 32 KiB is rejected as a size mismatch |
| Instructions.KeepCarry | GameboyEmu/cpu.cpp:82 | `REG_F & kCarryFlag` is 0x10 when C is set and 0 otherwise |
| Instructions.FromBool | GameboyEmu/cpu.cpp:101 | a bool promoted to an integer is 1 exactly when it is true |
| Instructions.Signed | GameboyEmu/cpu.cpp:105-110 | the int8_t copy of a byte lies in -128..127 and is congruent to the byte mod 256 |
| Instructions.Next8 | GameboyEmu/cpu.cpp:66-71 | succeeds exactly when the byte at PC is readable, returns that byte, advances PC by 1 mod 2^16 and changes no other register or memory; a failed read changes nothing |
| Instructions.Next16 | GameboyEmu/cpu.cpp:73-78 | succeeds exactly when the word at PC is readable, returns that word, advances PC by 2 mod 2^16 and changes no other register or memory; a failed read changes nothing |
| Instructions.Push16 | GameboyEmu/cpu.cpp:55-58 | SP drops by 2 mod 2^16 even when the store faults; no other register changes; the round trip with `Pop16` is `InstructionFacts.PushPopRoundTrip` |
| Instructions.Pop16 | GameboyEmu/cpu.cpp:60-64 | video memory is unchanged; a failed read changes nothing; the round trip with `Push16` is `InstructionFacts.PushPopRoundTrip` |
| Instructions.Bit | GameboyEmu/cpu.cpp:80-84 | changes only AF: every other register pair, SP and PC included, and video memory keep their values; its result and flags are stated by `InstructionFacts.BitFacts` |
| Instructions.CallD16 | GameboyEmu/cpu.cpp:86-91 | costs 6 when it completes; faults are router faults; its full outcome is stated by `InstructionFacts.CallD16Facts` |
| Instructions.Ei | GameboyEmu/cpu.cpp:93-97 | changes nothing and costs 1 |
| Instructions.IncR8 | GameboyEmu/cpu.cpp:99-103 | changes only the operand's pair and AF: every other pair, SP and PC included, and video memory keep their values; its result and flags are stated by `InstructionFacts.IncFacts` |
| Instructions.JrAr8 | GameboyEmu/cpu.cpp:105-112 | costs 3 when it completes; video memory is unchanged; its jump target is stated by `InstructionFacts.JrAr8Facts` |
| Instructions.JrCondAr8 | GameboyEmu/cpu.cpp:114-119 | with a false condition the machine is unchanged and the cost is 2 |
| Instructions.LdAd8R8 | GameboyEmu/cpu.cpp:121-124 | costs 3 when it completes; faults are router faults |
| Instructions.LdAr8R8 | GameboyEmu/cpu.cpp:126-129 | registers are unchanged; costs 2 when it completes |
| Instructions.LdAr16R8 | GameboyEmu/cpu.cpp:131-134 | registers are unchanged; costs 2 when it completes; its result is stated by `InstructionFacts.LdHlStoreFacts` |
| Instructions.LdR8Ar16 | GameboyEmu/cpu.cpp:136-139 | costs 2 when it completes; a failed read changes nothing; its result is stated by `InstructionFacts.LdAFromPairFacts` |
| Instructions.LdR8D8 | GameboyEmu/cpu.cpp:141-144 | costs 2 when it completes; video memory is unchanged; its result is stated by `InstructionFacts.LdR8D8Facts` |
| Instructions.LdR16D16 | GameboyEmu/cpu.cpp:146-149 | costs 3 when it completes; video memory is unchanged; its result is stated by `InstructionFacts.LdR16D16Facts` |
| Instructions.LddAr16D8 | GameboyEmu/cpu.cpp:151-155 | video memory is what `Set8` leaves, even when the store throws (a mirror store lands first); costs 2 when it completes; a failed store leaves the registers unchanged |
| Instructions.LddD8Ar16 | GameboyEmu/cpu.cpp:157-161 | costs 2 when it completes; a failed read changes nothing |
| Instructions.LdiAr16D8 | GameboyEmu/cpu.cpp:163-167 | video memory is what `Set8` leaves, even when the store throws (a mirror store lands first); costs 2 when it completes; a failed store leaves the registers unchanged |
| Instructions.LdiD8Ar16 | GameboyEmu/cpu.cpp:169-173 | costs 2 when it completes; a failed read changes nothing |
| Instructions.Nop | GameboyEmu/cpu.cpp:175-177 | changes nothing and costs 1 |
| Instructions.XorR8 | GameboyEmu/cpu.cpp:179-183 | changes only registers; its result and flags are stated by `InstructionFacts.XorFacts` |
| Instructions.CbPrefix | GameboyEmu/cpu.cpp:185-195 | costs 2 when it completes; faults are router faults or an unknown second byte; its table is stated by `InstructionFacts.CbPrefixFacts` |
| Instructions.Exec | GameboyEmu/cpu.cpp:197-256 | every completed instruction costs 1 to 6 cycles; `optime_`, `opcode_` and the boot image are untouched; the only faults are router faults, an unknown 0xCB byte, or `UnknownOpcode` of this opcode |
| Instructions.FetchExec | GameboyEmu/cpu.cpp:48-51 | keeps the machine well formed and the boot image unchanged |
| Instructions.Cycle | GameboyEmu/cpu.cpp:47-53 | keeps the machine well formed and the boot image unchanged |
| Instructions.RunCycles | GameboyEmu/gameboy.cpp:41-43 | keeps the machine well formed and the boot image unchanged |
| Instructions.Start | GameboyEmu/cpu.cpp:43-45 | PC becomes 0 and nothing else changes |
| InstructionFacts.RunCyclesStopsAtFault | GameboyEmu/gameboy.cpp:41-43 | once a call throws, no later call runs: n calls end where the first failing call ended |
| InstructionFacts.RunCyclesNext | GameboyEmu/gameboy.cpp:41-43 | after n successful calls, call n + 1 continues from where they stopped |
| InstructionFacts.RunCyclesSplit | GameboyEmu/gameboy.cpp:41-43 | when the first a calls succeed, a + b calls are those a calls followed by b calls |
| InstructionFacts.CountDown | GameboyEmu/cpu.cpp:47-53 | while `optime_` is positive, k calls only lower it by k and change nothing else |
| InstructionFacts.FetchExecOk | GameboyEmu/cpu.cpp:48-51 | a successful fetch-and-execute read an opcode, ran it, and added its cost to `optime_` |
| InstructionFacts.AfterFirstCycle | GameboyEmu/cpu.cpp:47-53 | after the fetching call, the next `optime_` calls only count down |
| InstructionFacts.CycleLoadsCost | GameboyEmu/cpu.cpp:48-52 | a call at `optime_` 0 executes the fetched opcode and leaves `optime_` at its cost minus one, and that cost is at most 6 |
| InstructionFacts.InstructionOccupiesCost | GameboyEmu/gameboy.hpp:125-126 | an instruction of cost c occupies exactly c calls, and the call after them fetches again |
| InstructionFacts.FlagBits | GameboyEmu/cpu.cpp:30-34 | a flag byte built from Z, H and C reads each flag back, has N clear and a zero low nibble |
| InstructionFacts.XorFacts | GameboyEmu/cpu.cpp:179-183 | A becomes A ^ op; Z is set exactly when A equalled op; N, H and C are cleared; no other byte changes; cost 1 |
| InstructionFacts.XorAClearsA | GameboyEmu/cpu.cpp:248 | XOR A leaves A = 0, F = 0x80 and AF = 0x8000, with the other pairs and video memory unchanged |
| InstructionFacts.BitFacts | GameboyEmu/cpu.cpp:80-84 | A becomes 2^pos or 0; Z is set exactly when that bit of the operand is clear; H is set, N clear, C kept; no other byte and no pair but AF changes; cost 2 |
| InstructionFacts.CbPrefixFacts | GameboyEmu/cpu.cpp:185-195 | second byte 0x7C is BIT 7,H (the `Bit` result): Z set exactly when H's top bit is clear, H set, N clear, C kept, A is 0x80 or 0, no pair but AF and PC changes and video memory is unchanged; any other second byte throws with PC past both bytes |
| InstructionFacts.IncFacts | GameboyEmu/cpu.cpp:99-103 | the register wraps to (r + 1) mod 256; Z is set exactly when A is zero afterwards; H is never set; N clear; C kept; no other byte and no pair but the operand's and AF changes; cost 1 |
| InstructionFacts.IncZeroTestsA | GameboyEmu/cpu.cpp:208 | INC C from 0xFF with A = 1 leaves C = 0 with Z clear |
| InstructionFacts.PushPopRoundTrip | GameboyEmu/cpu.cpp:55-64 | a word pushed with SP in video memory pops back, and every register is restored |
| InstructionFacts.CallFacts | GameboyEmu/cpu.cpp:202 | opcode 0xCD jumps to the target, lowers SP by 2, stores the return address (opcode address + 3) low byte first, changes no other register or video memory byte, and costs 6 |
| InstructionFacts.CallD16Facts | GameboyEmu/cpu.cpp:86-91 | the same outcome for the CALL handler itself |
| InstructionFacts.CallFromHighStackFaults | GameboyEmu/cpu.cpp:55-58 | CALL with SP = 0xFFFE lowers SP to 0xFFFC and throws a write fault there, with video memory unchanged |
| InstructionFacts.ZeroFlagTest | GameboyEmu/cpu.cpp:214 | `(REG_F & kZeroFlag) == 0` holds exactly when Z is clear |
| InstructionFacts.JrNzTaken | GameboyEmu/cpu.cpp:114-119 | JR NZ with Z clear sets PC to (PC after the displacement + signed displacement) mod 2^16, changes nothing else, and costs 3 |
| InstructionFacts.JrAr8Facts | GameboyEmu/cpu.cpp:105-112 | JR r8 sets PC to (PC after the displacement + signed displacement) mod 2^16, changes nothing else, and costs 3 |
| InstructionFacts.JrNzNotTaken | GameboyEmu/cpu.cpp:114-119 | JR NZ with Z set changes nothing (the displacement byte stays unread) and costs 2 |
| InstructionFacts.LdR16D16Facts | GameboyEmu/cpu.cpp:217-220 | LD rr,d16 puts the immediate word in BC, DE, HL or SP, advances PC by 2, changes nothing else, and costs 3 |
| InstructionFacts.LdR8D8Facts | GameboyEmu/cpu.cpp:225-228 | LD r,d8 puts the immediate byte in C, E, L or A, advances PC by 1, keeps every other byte, SP and video memory, and costs 2 |
| InstructionFacts.LdAFromPairFacts | GameboyEmu/cpu.cpp:222-223 | LD A,(BC) and LD A,(DE) load A from the pair's address and change nothing else, at cost 2; an unreadable address throws and changes nothing |
| InstructionFacts.LdHlStoreFacts | GameboyEmu/cpu.cpp:230 | LD (HL),A stores A at HL in video memory at cost 2; a mirror address stores and throws; registers never change |
| InstructionFacts.LdiLddMirrorStore | GameboyEmu/cpu.cpp:151-167 | LDI/LDD (HL),A with HL in the echo window store A into video memory at HL - 0xE000, then throw `WriteFault(HL)` with every register, HL included, unchanged |
| InstructionFacts.LdiLddStore | GameboyEmu/cpu.cpp:151-167 | LDI/LDD (HL),A store A at the old HL, move HL by +1 or -1, change nothing else, and cost 2 |
| InstructionFacts.LdiLddLoad | GameboyEmu/cpu.cpp:157-173 | LDI/LDD A,(HL) load A from the old HL, move HL by +1 or -1 mod 2^16, keep F and the other pairs, and cost 2 |
| InstructionFacts.HighPageStoresFault | GameboyEmu/cpu.cpp:121-129 | LD (0xFF00+C),A and LD (0xFF00+n),A always throw a write fault and leave video memory unchanged |
| InstructionFacts.ExecTable | GameboyEmu/cpu.cpp:197-256 | NOP and EI cost 1 and change nothing; 0x0C, 0x1C, 0x2C and 0x3C increment C, E, L and A; 0xCB runs the CB-prefix handler |
| InstructionFacts.UnknownOpcodeIff | GameboyEmu/cpu.cpp:197-256 | an opcode faults with `UnknownOpcode` exactly when it is outside the table, and then nothing changes |
| InstructionFacts.UnknownOpcodeStops | GameboyEmu/cpu.cpp:253-254 | a fetched unknown opcode makes this call and every later one report the fault |
| InstructionFacts.ExecKeepsFlagNibble | GameboyEmu/cpu.cpp:197-256 | every instruction, completed or faulting, keeps F's low nibble zero |
| InstructionFacts.ExecKeepsFlags | GameboyEmu/cpu.cpp:197-256 | every instruction other than XOR, INC and the 0xCB table leaves F unchanged |
| InstructionFacts.RunCyclesKeepFlagNibble | GameboyEmu/gameboy.cpp:41-43 | from a machine whose F has a zero low nibble, any number of calls keeps it zero |
| InstructionFacts.CycleKeepsFlagNibble | GameboyEmu/cpu.cpp:47-53 | one call keeps F's low nibble zero |
| Processor.Cpu.constructor | GameboyEmu/gameboy.hpp:84-87 | every register is 0 and `optime_` is 0 |
| Processor.Cpu.WriteWord | GameboyEmu/cpu.cpp:8-19 | the in-place store gives the register file `SetWord` describes |
| Processor.Cpu.WriteByte | GameboyEmu/cpu.cpp:21-28 | the in-place store gives the register file `SetByte` describes |
| Processor.Cpu.Push16 | GameboyEmu/cpu.cpp:55-58 | the new state and outcome are those of `Instructions.Push16` |
| Processor.Cpu.Pop16 | GameboyEmu/cpu.cpp:60-64 | the new state and outcome are those of `Instructions.Pop16` |
| Processor.Cpu.Next8 | GameboyEmu/cpu.cpp:66-71 | the new state and outcome are those of `Instructions.Next8` |
| Processor.Cpu.Next16 | GameboyEmu/cpu.cpp:73-78 | the new state and outcome are those of `Instructions.Next16` |
| Processor.Cpu.Bit | GameboyEmu/cpu.cpp:80-84 | the new state and cost are those of `Instructions.Bit` |
| Processor.Cpu.CallD16 | GameboyEmu/cpu.cpp:86-91 | the new state and outcome are those of `Instructions.CallD16` |
| Processor.Cpu.Ei | GameboyEmu/cpu.cpp:93-97 | state and cost are those of `Instructions.Ei` |
| Processor.Cpu.IncR8 | GameboyEmu/cpu.cpp:99-103 | the new state and cost are those of `Instructions.IncR8` |
| Processor.Cpu.JrAr8 | GameboyEmu/cpu.cpp:105-112 | the new state and outcome are those of `Instructions.JrAr8` |
| Processor.Cpu.JrCondAr8 | GameboyEmu/cpu.cpp:114-119 | the new state and outcome are those of `Instructions.JrCondAr8` |
| Processor.Cpu.LdAd8R8 | GameboyEmu/cpu.cpp:121-124 | the new state and outcome are those of `Instructions.LdAd8R8` |
| Processor.Cpu.LdAr8R8 | GameboyEmu/cpu.cpp:126-129 | the new state and outcome are those of `Instructions.LdAr8R8` |
| Processor.Cpu.LdAr16R8 | GameboyEmu/cpu.cpp:131-134 | the new state and outcome are those of `Instructions.LdAr16R8` |
| Processor.Cpu.LdR8Ar16 | GameboyEmu/cpu.cpp:136-139 | the new state and outcome are those of `Instructions.LdR8Ar16` |
| Processor.Cpu.LdR8D8 | GameboyEmu/cpu.cpp:141-144 | the new state and outcome are those of `Instructions.LdR8D8` |
| Processor.Cpu.LdR16D16 | GameboyEmu/cpu.cpp:146-149 | the new state and outcome are those of `Instructions.LdR16D16` |
| Processor.Cpu.LddAr16D8 | GameboyEmu/cpu.cpp:151-155 | the new state and outcome are those of `Instructions.LddAr16D8` |
| Processor.Cpu.LddD8Ar16 | GameboyEmu/cpu.cpp:157-161 | the new state and outcome are those of `Instructions.LddD8Ar16` |
| Processor.Cpu.LdiAr16D8 | GameboyEmu/cpu.cpp:163-167 | the new state and outcome are those of `Instructions.LdiAr16D8` |
| Processor.Cpu.LdiD8Ar16 | GameboyEmu/cpu.cpp:169-173 | the new state and outcome are those of `Instructions.LdiD8Ar16` |
| Processor.Cpu.Nop | GameboyEmu/cpu.cpp:175-177 | state and cost are those of `Instructions.Nop` |
| Processor.Cpu.XorR8 | GameboyEmu/cpu.cpp:179-183 | the new state and cost are those of `Instructions.XorR8` |
| Processor.Cpu.CbPrefix | GameboyEmu/cpu.cpp:185-195 | the new state and outcome are those of `Instructions.CbPrefix` |
| Processor.Cpu.Exec | GameboyEmu/cpu.cpp:197-256 | the new state and outcome are those of `Instructions.Exec` |
| Processor.Cpu.DoMachineCycle | GameboyEmu/cpu.cpp:47-53 | the new state and outcome are those of `Instructions.Cycle` |
| Processor.Cpu.Start | GameboyEmu/cpu.cpp:43-45 | the new state is that of `Instructions.Start` |
| Console.LoadBootRom | GameboyEmu/gameboy.cpp:5-15 | the boot image is accepted, unchanged, exactly when it is 256 bytes long; otherwise `BootRomSize` |
| Console.Ticks | GameboyEmu/cpu.cpp:36-38 | the whole number of clock periods (10^9 / 4190000 ns each) in the elapsed time, rounded down |
| Console.TicksMonotone | GameboyEmu/gameboy.cpp:37 | more elapsed time never gives fewer ticks |
| Console.Due | GameboyEmu/gameboy.cpp:35-39 | the ticks an update returns bring the old tick count to the tick count of the new time |
| Console.Returns | GameboyEmu/gameboy.cpp:34-46 | a series of updates returns one value per update |
| Console.ReturnsTelescope | GameboyEmu/gameboy.cpp:35-39 | the values returned by a series of updates add up to the ticks of the whole elapsed time |
| Console.LeftoverTicks | GameboyEmu/gameboy.cpp:37-43 | a series of updates runs a quarter of the returned ticks, losing fewer than 3 ticks per update |
| Console.SplitUpdatesLoseCycles | GameboyEmu/gameboy.cpp:37-43 | two updates of 716 ns return 3 ticks each and run no cycle; one update of 1432 ns returns 6 and runs one |
| Console.Connectors.constructor | GameboyEmu/gameboy.cpp:17-18 | no cartridge is loaded |
| Console.Connectors.LoadCartridge | GameboyEmu/gameboy.cpp:20-22 | succeeds exactly when the image forms a cartridge, which then replaces the old one; on failure the old one stays |
| Console.GameBoy.constructor | GameboyEmu/gameboy.hpp:144-146 | `time_` and `ccycles_` start at 0 |
| Console.GameBoy.Create | GameboyEmu/gameboy.cpp:24-28 | construction succeeds exactly when the boot image is 256 bytes; then every register, `optime_`, the counters and video memory are zero and no cartridge is loaded |
| Console.GameBoy.Start | GameboyEmu/gameboy.cpp:30-32 | the processor state becomes that of `Instructions.Start` |
| Console.GameBoy.Update | GameboyEmu/gameboy.cpp:34-46 | `time_` grows by dtime, `ccycles_` by the due ticks, and the processor ends where a quarter of those ticks' worth of `DoMachineCycle` calls leaves it; the due ticks are returned unless a call threw |
| Console.GameBoy.LoadCartridge | GameboyEmu/gameboy.cpp:48-50 | succeeds exactly when the image forms a cartridge, which then replaces the old one; on failure the old one stays and the cartridge's own fault is reported |

## Left out

- Logging (`BOOST_LOG_TRIVIAL`) and exception message texts: a fault records only its kind and the address or opcode.
- Image loading through the data-access object (`GBDAO`), `main.cpp` and the utilities: boot and cartridge images are given as byte sequences.
- `GBGPU::DoMachineCycle` and `GBGPU`'s other members are declared without definitions, so they are not part of this model; only the zeroed `vram_` array is.
- The `GBMemoryBankController` hierarchy is reduced to the one kind that exists (`MbcNone`); its `name()` string is not modelled.
- The router's reference to the connectors is never used by `Get8`/`Set8`, so cartridge memory is not reachable through the model's router either.
- `EI` is modelled as the stub it is: interrupts do not exist in the source.
- Console.Ticks: the source divides by a double clock period. This differs from 10^9 / 4190000 ns by less than 10^-14 ns, and the model uses the exact rational floor. The two counts can only diverge once the tick count passes roughly 6·10^10, some four hours of emulated time.
- Console.GameBoy.Update: `time_` and `ccycles_` are unbounded naturals, and `dtime` is a natural. Overflow of `long long` and negative elapsed times are not modelled.
- Memory.Read16: C++ leaves the order of the two `Get8` calls unspecified. When both bytes fault, the model reports the low byte's fault.
- Memory.Read8: a boot image read at 0x0100-0x0FFF is undefined behaviour in C++. It is modelled as an explicit `OutOfBounds` fault.
- Cartridge.GetCartRomSize: reading the header of an image shorter than 0x0149 bytes is undefined behaviour in C++. It is modelled as an explicit `OutOfBounds` fault.
- Processor.Cpu.constructor: `opcode_` has no initialiser in the source, so the constructor's contract leaves its initial value open.
- InstructionFacts.IncFacts: stated for the registers the dispatcher passes (C, E, L, A), not for an increment of F itself.
- InstructionFacts.RunCyclesSplit: stated for the case where the first a calls succeed. When one of them throws, `InstructionFacts.RunCyclesStopsAtFault` gives the outcome instead.
- Concurrency is not modelled: there is none in the core.

=== FILE: bits.dfy ===
/** Fixed-width integers and the bitwise operators the processor uses.
    A byte is a uint8_t and a word a uint16_t; AND and XOR are defined bit by bit
    on naturals, least significant bit first. */
module Bits {

  type byte = x: int | 0 <= x < 0x100
  type word = x: int | 0 <= x < 0x1_0000

  /** A bit position inside a byte, as used by the BIT instruction. */
  type bitIndex = x: int | 0 <= x < 8

  function Pow2(n: nat): (r: nat)
    ensures r >= 1
  {
    if n == 0 then 1 else 2 * Pow2(n - 1)
  }

  /** Exponents add: 2^(a+b) = 2^a * 2^b. */
  lemma {:induction false} Pow2Add(a: nat, b: nat)
    ensures Pow2(a + b) == Pow2(a) * Pow2(b)
  {
    if b > 0 {
      Pow2Add(a, b - 1);
      assert Pow2(a + b) == 2 * Pow2(a + b - 1);
      assert Pow2(a) * Pow2(b) == Pow2(a) * (2 * Pow2(b - 1)) == 2 * (Pow2(a) * Pow2(b - 1));
    }
  }

  /** Bit k of x (bit 0 is the least significant one). */
  predicate IsSet(x: nat, k: nat)
    decreases k
  {
    if k == 0 then x % 2 == 1 else IsSet(x / 2, k - 1)
  }

  /** AND of the low n bits of a and b. */
  function AndBits(a: nat, b: nat, n: nat): (r: nat)
    ensures r < Pow2(n)
  {
    if n == 0 then 0
    else (if a % 2 == 1 && b % 2 == 1 then 1 else 0) + 2 * AndBits(a / 2, b / 2, n - 1)
  }

  /** XOR of the low n bits of a and b. */
  function XorBits(a: nat, b: nat, n: nat): (r: nat)
    ensures r < Pow2(n)
  {
    if n == 0 then 0
    else (if a % 2 != b % 2 then 1 else 0) + 2 * XorBits(a / 2, b / 2, n - 1)
  }

  /** `a & b` on two uint8_t values. */
  function And8(a: byte, b: byte): byte
  {
    assert Pow2(8) == 0x100;
    AndBits(a, b, 8)
  }

  /** `a ^ b` on two uint8_t values. */
  function Xor8(a: byte, b: byte): byte
  {
    assert Pow2(8) == 0x100;
    XorBits(a, b, 8)
  }

  /** `1 << pos` for a bit position of a byte. */
  function Mask(pos: bitIndex): (m: byte)
    ensures m == Pow2(pos)
  {
    Pow2Below(pos, 8);
    assert Pow2(8) == 0x100;
    Pow2(pos)
  }

  lemma {:induction false} Pow2Below(k: nat, n: nat)
    requires k < n
    ensures Pow2(k) < Pow2(n)
  {
    if k + 1 < n {
      Pow2Below(k, n - 1);
    }
  }

  /** x XOR x is zero: the identity behind "XOR A clears A". */
  lemma {:induction false} XorSelf(a: nat, n: nat)
    ensures XorBits(a, a, n) == 0
  {
    if n > 0 {
      XorSelf(a / 2, n - 1);
    }
  }

  /** Over n bits, a XOR b is zero exactly when a and b are equal. */
  lemma {:induction false} XorZeroIff(a: nat, b: nat, n: nat)
    requires a < Pow2(n) && b < Pow2(n)
    ensures XorBits(a, b, n) == 0 <==> a == b
  {
    if n == 0 {
    } else {
      XorZeroIff(a / 2, b / 2, n - 1);
    }
  }

  /** ANDing with zero clears every bit. */
  lemma {:induction false} AndZero(a: nat, n: nat)
    ensures AndBits(a, 0, n) == 0
  {
    if n > 0 {
      AndZero(a / 2, n - 1);
    }
  }

  /** ANDing with a one-bit mask isolates that bit. */
  lemma {:induction false} AndSingleBit(a: nat, k: nat, n: nat)
    requires k < n
    ensures AndBits(a, Pow2(k), n) == if IsSet(a, k) then Pow2(k) else 0
  {
    if k == 0 {
      AndZero(a / 2, n - 1);
    } else {
      assert Pow2(k) / 2 == Pow2(k - 1);
      AndSingleBit(a / 2, k - 1, n - 1);
    }
  }
}

=== FILE: cartridge.dfy ===
/** Cartridge header decoding: the ROM and RAM size tables, the controller
    kind, the load-time size check and the title field. Every function here is
    a pure lookup over the image bytes. */
module Cartridge {
  import opened Bits
  import opened Faults

  const KB: nat := 1024
  const MB: nat := 1048576

  const TitleOffset: nat := 0x0134
  const MbcTypeOffset: nat := 0x0147
  const RomSizeOffset: nat := 0x0148
  const RamSizeOffset: nat := 0x0149

  /** The ROM size a header code declares. The three non-power-of-two codes
      are 1.125, 1.25 and 1.5 MiB, which the double products give exactly. */
  function RomSizeOf(code: byte): (r: Result<nat>)
    ensures r.Ok? <==> code <= 0x08 || 0x52 <= code <= 0x54
    ensures r.Err? ==> r.fault == InvalidRomSize
    ensures r.Ok? ==> r.value % (32 * KB) == 0 && 32 * KB <= r.value <= 8 * MB
  {
    match code
    case 0x00 => Ok(32 * KB)
    case 0x01 => Ok(64 * KB)
    case 0x02 => Ok(128 * KB)
    case 0x03 => Ok(256 * KB)
    case 0x04 => Ok(512 * KB)
    case 0x05 => Ok(MB)
    case 0x06 => Ok(2 * MB)
    case 0x07 => Ok(4 * MB)
    case 0x08 => Ok(8 * MB)
    case 0x52 => Ok(MB + MB / 8)
    case 0x53 => Ok(MB + MB / 4)
    case 0x54 => Ok(MB + MB / 2)
    case _ => Err(InvalidRomSize)
  }

  /** Codes 0x00-0x08 double the size each step from 32 KiB; the three others
      are the exact integers 1179648, 1310720 and 1572864. */
  lemma RomSizeTable(code: byte)
    ensures code <= 0x08 ==> RomSizeOf(code) == Ok(32 * KB * Pow2(code))
    ensures code == 0x52 ==> RomSizeOf(code) == Ok(1179648)
    ensures code == 0x53 ==> RomSizeOf(code) == Ok(1310720)
    ensures code == 0x54 ==> RomSizeOf(code) == Ok(1572864)
  {
    if code <= 0x08 {
      assert Pow2(0) == 1 && Pow2(1) == 2 && Pow2(2) == 4 && Pow2(3) == 8 && Pow2(4) == 16;
      assert Pow2(5) == 32 && Pow2(6) == 64 && Pow2(7) == 128 && Pow2(8) == 256;
    }
  }

  /** `GetCartROMSize`: the size declared by the byte at 0x0148. An image too
      short to hold that byte is an explicit fault here (undefined in C++). */
  function GetCartRomSize(rom: seq<byte>): (r: Result<nat>)
    ensures |rom| > RomSizeOffset ==> r == RomSizeOf(rom[RomSizeOffset])
    ensures |rom| <= RomSizeOffset ==> r == Err(OutOfBounds(RomSizeOffset))
  {
    if |rom| <= RomSizeOffset then Err(OutOfBounds(RomSizeOffset)) else RomSizeOf(rom[RomSizeOffset])
  }

  /** The RAM size a header code declares: {0, 2, 8, 32, 128, 64} KiB. */
  function RamSizeOf(code: byte): (r: Result<nat>)
    ensures r.Ok? <==> code <= 0x05
    ensures r.Err? ==> r.fault == InvalidRamSize
    ensures r.Ok? ==> r.value <= 128 * KB && r.value % (2 * KB) == 0
  {
    match code
    case 0x00 => Ok(0)
    case 0x01 => Ok(2 * KB)
    case 0x02 => Ok(8 * KB)
    case 0x03 => Ok(32 * KB)
    case 0x04 => Ok(128 * KB)
    case 0x05 => Ok(64 * KB)
    case _ => Err(InvalidRamSize)
  }

  /** Codes 0x00-0x05 declare 0, 2, 8, 32, 128 and 64 KiB, in that order. */
  lemma RamSizeTable(code: byte)
    ensures code == 0x00 ==> RamSizeOf(code) == Ok(0)
    ensures code == 0x01 ==> RamSizeOf(code) == Ok(2048)
    ensures code == 0x02 ==> RamSizeOf(code) == Ok(8192)
    ensures code == 0x03 ==> RamSizeOf(code) == Ok(32768)
    ensures code == 0x04 ==> RamSizeOf(code) == Ok(131072)
    ensures code == 0x05 ==> RamSizeOf(code) == Ok(65536)
    ensures code > 0x05 ==> RamSizeOf(code) == Err(InvalidRamSize)
  {
  }

  /** The memory bank controller kinds; only "none" exists so far. */
  datatype Mbc = MbcNone

  /** `CreateMBC`: only controller byte 0x00 at 0x0147 is supported. */
  function CreateMbc(rom: seq<byte>): (r: Result<Mbc>)
    requires |rom| > MbcTypeOffset
    ensures r.Ok? <==> rom[MbcTypeOffset] == 0x00
    ensures r.Err? ==> r.fault == UnsupportedMbc
  {
    if rom[MbcTypeOffset] == 0x00 then Ok(MbcNone) else Err(UnsupportedMbc)
  }

  /** `LoadCartridgeROM`'s check: the image is accepted exactly when its length
      equals the size its own header declares. */
  function LoadCartridgeRom(image: seq<byte>): (r: Result<seq<byte>>)
    ensures r.Ok? <==> GetCartRomSize(image) == Ok(|image|)
    ensures r.Ok? ==> r.value == image
    ensures GetCartRomSize(image).Ok? && r.Err? ==> r.fault == RomSizeMismatch
    ensures GetCartRomSize(image).Err? ==> r == Err(GetCartRomSize(image).fault)
  {
    match GetCartRomSize(image)
    case Err(f) => Err(f)
    case Ok(size) => if |image| != size then Err(RomSizeMismatch) else Ok(image)
  }

  /** A loaded cartridge: its image and its controller. */
  datatype Cart = Cart(rom: seq<byte>, mbc: Mbc)

  /** What the `GBCartridge` constructor establishes. */
  predicate Loaded(c: Cart)
  {
    GetCartRomSize(c.rom) == Ok(|c.rom|)
  }

  /** The `GBCartridge` constructor: the size check, then the controller check. */
  function NewCart(image: seq<byte>): (r: Result<Cart>)
    ensures r.Ok? <==> GetCartRomSize(image) == Ok(|image|) && image[MbcTypeOffset] == 0x00
    ensures r.Ok? ==> r.value.rom == image && Loaded(r.value)
    ensures r.Err? ==> r.fault == (if LoadCartridgeRom(image).Err? then LoadCartridgeRom(image).fault
                                   else UnsupportedMbc)
  {
    match LoadCartridgeRom(image)
    case Err(f) => Err(f)
    case Ok(rom) =>
      match CreateMbc(rom)
      case Err(f) => Err(f)
      case Ok(mbc) => Ok(Cart(rom, mbc))
  }

  /** `title`: the 16 bytes at 0x0134, always inside a loaded image. */
  function Title(c: Cart): (t: seq<byte>)
    requires Loaded(c)
    ensures |t| == 16
    ensures forall i :: 0 <= i < 16 ==> t[i] == c.rom[TitleOffset + i]
  {
    c.rom[TitleOffset..TitleOffset + 16]
  }

  /** `rom_size`: for a loaded cartridge it is always the image length. */
  function CartRomSize(c: Cart): (r: Result<nat>)
    requires Loaded(c)
    ensures r == Ok(|c.rom|)
  {
    GetCartRomSize(c.rom)
  }

  /** `ram_size`: decodes the byte at 0x0149 of a loaded image. */
  function CartRamSize(c: Cart): (r: Result<nat>)
    requires Loaded(c)
    ensures r.Ok? <==> c.rom[RamSizeOffset] <= 0x05
    ensures r.Err? ==> r.fault == InvalidRamSize
    ensures r == RamSizeOf(c.rom[RamSizeOffset])
  {
    RamSizeOf(c.rom[RamSizeOffset])
  }

  /** A header declaring 32 KiB on a 16 KiB image is rejected as a size mismatch. */
  lemma ShortImageRejected(image: seq<byte>)
    requires |image| == 16 * KB && image[RomSizeOffset] == 0x00
    ensures LoadCartridgeRom(image) == Err(RomSizeMismatch)
    ensures NewCart(image) == Err(RomSizeMismatch)
  {
  }
}

=== FILE: console.dfy ===
/** `DMGGameBoy` and `GBConnectors`: the boot image check, the wiring of the
    GPU, router and processor, and the timing driver that turns elapsed
    nanoseconds into processor clock ticks and machine cycles. */
module Console {
  import opened Bits
  import opened Faults
  import opened Memory
  import opened Cartridge
  import opened Processor
  import I = Instructions
  import F = InstructionFacts

  /** `LoadBootROM`: the boot image is accepted only when it is exactly 256 bytes. */
  function LoadBootRom(image: seq<byte>): (r: Result<seq<byte>>)
    ensures r.Ok? <==> |image| == BootRomLength
    ensures r.Ok? ==> r.value == image
    ensures r.Err? ==> r.fault == BootRomSize
  {
    if |image| != 256 then Err(BootRomSize) else Ok(image)
  }

  // ---- the clock ----

  /** `kGBClockFreq`, in ticks per second. */
  const ClockFreq: nat := 4190000
  const NanosPerSecond: nat := 1000000000

  /** `(long long)(time / kGBClockPeriod)`: the whole clock ticks in `time`
      nanoseconds, computed exactly instead of through a double. */
  function Ticks(time: nat): (t: nat)
    ensures t * NanosPerSecond <= time * ClockFreq < (t + 1) * NanosPerSecond
  {
    time * ClockFreq / NanosPerSecond
  }

  lemma TicksMonotone(a: nat, b: nat)
    requires a <= b
    ensures Ticks(a) <= Ticks(b)
  {
    assert a * ClockFreq <= b * ClockFreq;
  }

  /** What `Update(dtime)` returns when the clock stood at `time` nanoseconds
      with `ccycles_` equal to `Ticks(time)`: the ticks that became due. */
  function Due(time: nat, dtime: nat): (d: nat)
    ensures Ticks(time) + d == Ticks(time + dtime)
  {
    TicksMonotone(time, time + dtime);
    Ticks(time + dtime) - Ticks(time)
  }

  function Sum(xs: seq<nat>): nat
  {
    if xs == [] then 0 else xs[0] + Sum(xs[1..])
  }

  /** The values a series of `Update` calls returns, starting at `time`. */
  function Returns(time: nat, dtimes: seq<nat>): (rs: seq<nat>)
    ensures |rs| == |dtimes|
    decreases |dtimes|
  {
    if dtimes == [] then [] else [Due(time, dtimes[0])] + Returns(time + dtimes[0], dtimes[1..])
  }

  /** The number of `DoMachineCycle` calls the same series makes, when none throws. */
  function CyclesRun(time: nat, dtimes: seq<nat>): nat
    decreases |dtimes|
  {
    if dtimes == [] then 0 else Due(time, dtimes[0]) / 4 + CyclesRun(time + dtimes[0], dtimes[1..])
  }

  /** The returned values add up to the ticks of the whole elapsed time:
      `ccycles_` is the running sum of everything `Update` returned. */
  lemma {:induction false} ReturnsTelescope(time: nat, dtimes: seq<nat>)
    ensures Ticks(time) + Sum(Returns(time, dtimes)) == Ticks(time + Sum(dtimes))
    decreases |dtimes|
  {
    if dtimes != [] {
      ReturnsTelescope(time + dtimes[0], dtimes[1..]);
      assert Returns(time, dtimes)[1..] == Returns(time + dtimes[0], dtimes[1..]);
    }
  }

  /** Each call runs a quarter of its ticks, rounded down, so up to three
      ticks per call are counted but never executed. */
  lemma {:induction false} LeftoverTicks(time: nat, dtimes: seq<nat>)
    ensures 4 * CyclesRun(time, dtimes) <= Sum(Returns(time, dtimes))
    ensures Sum(Returns(time, dtimes)) < 4 * CyclesRun(time, dtimes) + 3 * |dtimes| + 1
    decreases |dtimes|
  {
    if dtimes != [] {
      LeftoverTicks(time + dtimes[0], dtimes[1..]);
      assert Returns(time, dtimes)[1..] == Returns(time + dtimes[0], dtimes[1..]);
    }
  }

  /** Two updates of 716 ns each return 3 ticks each and run no machine cycle,
      while one update of 1432 ns returns 6 ticks and runs one. */
  lemma SplitUpdatesLoseCycles()
    ensures Returns(0, [716, 716]) == [3, 3] && CyclesRun(0, [716, 716]) == 0
    ensures Returns(0, [1432]) == [6] && CyclesRun(0, [1432]) == 1
  {
    assert Ticks(716) == 3 && Ticks(1432) == 6;
    assert Returns(1432, []) == [] && CyclesRun(1432, []) == 0;
    assert Returns(716, [716]) == [3] && CyclesRun(716, [716]) == 0;
  }

  // ---- the machine ----

  /** `GBConnectors`: holds the cartridge once one is loaded. */
  class Connectors {
    var cart: Option<Cart>

    constructor ()
      ensures cart == None
    {
      cart := None;
    }

    /** `LoadCartridge`: a cartridge that fails to load leaves the old one in place. */
    method LoadCartridge(image: seq<byte>) returns (r: Result<()>)
      modifies this
      ensures r.Ok? <==> NewCart(image).Ok?
      ensures r.Ok? ==> cart == Some(NewCart(image).value)
      ensures r.Err? ==> cart == old(cart) && r.fault == NewCart(image).fault
    {
      var c := NewCart(image);
      if c.Err? {
        return Err(c.fault);
      }
      cart := Some(c.value);
      r := Ok(());
    }
  }

  /** `DMGGameBoy`: the processor wired to its router and GPU, and the two
      `long long` counters of the timing driver. */
  class GameBoy {
    const conns: Connectors
    const cpu: Cpu
    var time: nat
    var ccycles: nat

    ghost predicate Valid()
      reads this
    {
      cpu.Valid() && ccycles == Ticks(time)
    }

    constructor (conns: Connectors, cpu: Cpu)
      requires cpu.Valid()
      ensures Valid() && this.conns == conns && this.cpu == cpu
      ensures time == 0 && ccycles == 0
    {
      this.conns := conns;
      this.cpu := cpu;
      time := 0;
      ccycles := 0;
    }

    /** The `DMGGameBoy` constructor: check the boot image, then build the GPU,
        the connectors and the processor. Every register and `optime_` start
        at zero and video memory is cleared. */
    static method Create(bootImage: seq<byte>) returns (r: Result<GameBoy>)
      ensures r.Ok? <==> LoadBootRom(bootImage).Ok?
      ensures r.Err? ==> r.fault == BootRomSize
      ensures r.Ok? ==> fresh(r.value) && fresh(r.value.cpu) && fresh(r.value.cpu.registers)
      ensures r.Ok? ==> r.value.Valid() && r.value.time == 0 && r.value.ccycles == 0
      ensures r.Ok? ==> r.value.conns.cart == None
      ensures r.Ok? ==> var m := r.value.cpu.Snapshot();
                        m.boot == bootImage && m.regs == [0, 0, 0, 0, 0, 0] && m.optime == 0
                        && m.vram == seq(VramLength, _ => 0)
    {
      var boot := LoadBootRom(bootImage);
      if boot.Err? {
        return Err(boot.fault);
      }
      var conns := new Connectors();
      var gpu := new Gpu();
      var mem := new VirtualMemory(boot.value, gpu);
      var cpu := new Cpu(mem);
      var gb := new GameBoy(conns, cpu);
      assert cpu.registers[..] == [0, 0, 0, 0, 0, 0];
      assert gpu.vram[..] == seq(VramLength, _ => 0);
      r := Ok(gb);
    }

    /** `DMGGameBoy::Start`: PC := 0. */
    method Start()
      requires Valid()
      modifies cpu.registers
      ensures Valid()
      ensures cpu.Snapshot() == I.Start(old(cpu.Snapshot()))
    {
      cpu.Start();
    }

    /** `DMGGameBoy::Update`: advance the clock by `dtime` nanoseconds, count
        the ticks that became due, run a quarter of them (rounded down) as
        machine cycles and return the tick count. A cycle that throws ends
        the call with the counters already advanced. */
    method Update(dtime: nat) returns (r: Result<nat>)
      requires Valid()
      modifies this, cpu, cpu.registers, cpu.mem.gpu.vram
      ensures Valid()
      ensures time == old(time) + dtime
      ensures ccycles == old(ccycles) + Due(old(time), dtime)
      ensures var run := I.RunCycles(old(cpu.Snapshot()), Due(old(time), dtime) / 4);
              cpu.Snapshot() == run.m && r == Then(run.r, Due(old(time), dtime))
    {
      time := time + dtime;
      var dccycle := Ticks(time) - ccycles;
      var dmcycle := dccycle / 4;
      ccycles := ccycles + dccycle;
      ghost var m0 := cpu.Snapshot();
      assert dccycle == Due(old(time), dtime);
      r := Ok(dccycle);
      var i := 0;
      while i < dmcycle && r.Ok?
        invariant 0 <= i <= dmcycle
        invariant Valid() && time == old(time) + dtime && ccycles == old(ccycles) + dccycle
        invariant r == Then(I.RunCycles(m0, i).r, dccycle)
        invariant I.RunCycles(m0, i).m == cpu.Snapshot()
      {
        var c := cpu.DoMachineCycle();
        F.RunCyclesNext(m0, i);
        r := Then(c, dccycle);
        i := i + 1;
      }
      if r.Err? {
        F.RunCyclesStopsAtFault(m0, i, dmcycle);
      }
    }

    /** `DMGGameBoy::LoadCartridge`: hand the image to the connectors. */
    method LoadCartridge(image: seq<byte>) returns (r: Result<()>)
      modifies conns
      ensures r.Ok? <==> NewCart(image).Ok?
      ensures r.Ok? ==> conns.cart == Some(NewCart(image).value)
      ensures r.Err? ==> conns.cart == old(conns.cart) && r.fault == NewCart(image).fault
    {
      r := conns.LoadCartridge(image);
    }
  }
}

=== FILE: faults.dfy ===
/** The fatal errors of the emulator core. Every `throw std::runtime_error`
    of the modelled code becomes one of these; message text is not modelled. */
module Faults {

  datatype Fault =
    | UnknownOpcode(opcode: int)        // primary table miss
    | UnknownCbOpcode(opcode: int)      // second byte after 0xCB not in the table
    | ReadFault(addr: nat)              // "Memory at ... can't be read"
    | WriteFault(addr: nat)             // "Memory at ... can't be written"
    | OutOfBounds(index: nat)           // a read past the end of an image (undefined in C++)
    | BootRomSize                       // "Boot ROM is not 256 bytes"
    | InvalidRomSize                    // "Invalid cartridge ROM size"
    | InvalidRamSize                    // "Invalid cartridge RAM size"
    | UnsupportedMbc                    // "Unsupported cartridge memory bank controller"
    | RomSizeMismatch                   // "Cartridge ROM's size doesn't match header"

  datatype Result<+T> = Ok(value: T) | Err(fault: Fault)

  /** Replaces the value of a successful outcome, keeping a failure as it is. */
  function Then<T, U>(r: Result<T>, u: U): (s: Result<U>)
    ensures s.Ok? <==> r.Ok?
    ensures s.Ok? ==> s.value == u
    ensures s.Err? ==> s.fault == r.fault
  {
    match r
    case Ok(_) => Ok(u)
    case Err(f) => Err(f)
  }

  /** Optional value, for state that may be absent. */
  datatype Option<+T> = None | Some(value: T)
}

=== FILE: instruction_facts.dfy ===
/** What the instruction set promises, stated over the functions of
    `Instructions`: the `optime_` countdown, failure on unknown opcodes, the
    flag results of XOR, BIT and INC, CALL and the stack, the conditional
    jump, the loads and the stores to the high page. */
module InstructionFacts {
  import opened Bits
  import opened Faults
  import opened Registers
  import opened Memory
  import opened Instructions

  // ---- the machine-cycle countdown ----

  /** Once a cycle has thrown, further calls are never made: the outcome of
      n calls is the outcome of the first failing one. */
  lemma {:induction false} RunCyclesStopsAtFault(m: Machine, k: nat, n: nat)
    requires WellFormed(m) && k <= n && RunCycles(m, k).r.Err?
    ensures RunCycles(m, n) == RunCycles(m, k)
    decreases n
  {
    if k < n {
      RunCyclesStopsAtFault(m, k, n - 1);
    }
    RunCyclesAfterFault(m, k, n);
  }

  /** One step of `RunCyclesStopsAtFault`: the case n = k, and the case
      n > k from the case n - 1. */
  lemma RunCyclesAfterFault(m: Machine, k: nat, n: nat)
    requires WellFormed(m) && k <= n && RunCycles(m, k).r.Err?
    ensures (k == n || RunCycles(m, n - 1) == RunCycles(m, k)) ==> RunCycles(m, n) == RunCycles(m, k)
  {
  }

  /** One more call continues from where n successful calls left off. */
  lemma RunCyclesNext(m: Machine, n: nat)
    requires WellFormed(m) && RunCycles(m, n).r.Ok?
    ensures RunCycles(m, n + 1) == Cycle(RunCycles(m, n).m)
  {
  }

  /** No calls leave a machine as it is. */
  lemma RunCyclesZero(s: Step<()>)
    requires WellFormed(s.m) && s.r.Ok?
    ensures RunCycles(s.m, 0) == s
  {
    var u: () := s.r.value;
    assert s.r == Ok(u) && u == ();
  }

  /** One step of `RunCyclesSplit`: the case b = 0, and the case b > 0 from
      the case b - 1. */
  lemma RunCyclesSplitStep(m: Machine, a: nat, b: nat)
    requires WellFormed(m) && RunCycles(m, a).r.Ok?
    ensures (b == 0 || RunCycles(m, a + (b - 1)) == RunCycles(RunCycles(m, a).m, b - 1)) ==>
            RunCycles(m, a + b) == RunCycles(RunCycles(m, a).m, b)
  {
    if b == 0 {
      RunCyclesZero(RunCycles(m, a));
    }
  }

  /** When the first a calls succeed, a + b calls are those a calls followed
      by b calls from where they left off. (When one of the first a calls
      throws, `RunCyclesStopsAtFault` gives the outcome.) */
  lemma {:induction false} RunCyclesSplit(m: Machine, a: nat, b: nat)
    requires WellFormed(m) && RunCycles(m, a).r.Ok?
    ensures RunCycles(m, a + b) == RunCycles(RunCycles(m, a).m, b)
    decreases b
  {
    if b > 0 {
      RunCyclesSplit(m, a, b - 1);
    }
    RunCyclesSplitStep(m, a, b);
  }

  /** While `optime_` is positive a call only counts it down: no fetch, no
      change to registers or memory. */
  lemma {:induction false} CountDown(m: Machine, k: nat)
    requires WellFormed(m) && k <= m.optime
    ensures RunCycles(m, k) == Step(m.(optime := m.optime - k), Ok(()))
    decreases k
  {
    if k > 0 {
      CountDown(m, k - 1);
      var prev := m.(optime := m.optime - (k - 1));
      assert RunCycles(m, k - 1) == Step(prev, Ok(()));
      assert prev.optime > 0;
      assert Cycle(prev) == Step(prev.(optime := prev.optime - 1), Ok(()));
      assert prev.(optime := prev.optime - 1) == m.(optime := m.optime - k);
    }
  }

  /** A successful fetch-and-execute read an opcode, ran it, and loaded its
      cost into `optime_`. */
  lemma FetchExecOk(m: Machine)
    requires WellFormed(m) && FetchExec(m).r.Ok?
    ensures var fetch := Next8(m);
            fetch.r.Ok? && (var run := Exec(fetch.m.(opcode := fetch.r.value), fetch.r.value);
                            run.r.Ok? && FetchExec(m).m == run.m.(optime := run.m.optime + run.r.value))
  {
  }

  /** When the first call leaves the machine at `s` without throwing, the
      next `s.optime` calls only count down. */
  lemma AfterFirstCycle(m: Machine, s: Machine, j: nat)
    requires WellFormed(m) && WellFormed(s) && RunCycles(m, 1) == Step(s, Ok(()))
    requires 1 <= j <= s.optime + 1
    ensures RunCycles(m, j) == Step(s.(optime := s.optime + 1 - j), Ok(()))
  {
    RunCyclesSplit(m, 1, j - 1);
    CountDown(s, j - 1);
  }

  /** A call with `optime_` at 0 fetches and executes an instruction and
      leaves `optime_` at its cost c minus one, where 1 <= c <= 6. */
  lemma CycleLoadsCost(m: Machine)
    requires WellFormed(m) && m.optime == 0 && Cycle(m).r.Ok?
    ensures var fetch := Next8(m);
            fetch.r.Ok? && Exec(fetch.m.(opcode := fetch.r.value), fetch.r.value).r == Ok(Cycle(m).m.optime + 1)
    ensures Cycle(m).m.optime + 1 <= 6
  {
    var ex := FetchExec(m);
    assert Cycle(m) == Step(ex.m.(optime := ex.m.optime - 1), Ok(()));
    FetchExecOk(m);
  }

  /** The c - 1 calls after the fetching one only count down, so an
      instruction of cost c occupies exactly c calls and the call after them
      fetches again. */
  lemma InstructionOccupiesCost(m: Machine)
    requires WellFormed(m) && m.optime == 0 && Cycle(m).r.Ok?
    ensures var s := Cycle(m).m;
            forall j :: 1 <= j <= s.optime + 1 ==> RunCycles(m, j) == Step(s.(optime := s.optime + 1 - j), Ok(()))
  {
    var s := Cycle(m).m;
    assert RunCycles(m, 1) == Cycle(m);
    forall j | 1 <= j <= s.optime + 1
      ensures RunCycles(m, j) == Step(s.(optime := s.optime + 1 - j), Ok(()))
    {
      AfterFirstCycle(m, s, j);
    }
  }

  // ---- flags ----

  /** A flag byte assembled from Z, H and C: each flag reads back, N is clear
      and the low nibble is zero. */
  lemma FlagBits(z: bool, h: bool, c: bool)
    ensures var f := (if z then ZeroFlag else 0) + (if h then HalfCarryFlag else 0) + (if c then CarryFlag else 0);
            (Zero(f) <==> z) && !Subtract(f) && (HalfCarry(f) <==> h) && (Carry(f) <==> c) && f % 0x10 == 0
  {
    if z {
      if h {
        if c { assert IsSet(0xB0, 7) && !IsSet(0xB0, 6) && IsSet(0xB0, 5) && IsSet(0xB0, 4); }
        else { assert IsSet(0xA0, 7) && !IsSet(0xA0, 6) && IsSet(0xA0, 5) && !IsSet(0xA0, 4); }
      } else {
        if c { assert IsSet(0x90, 7) && !IsSet(0x90, 6) && !IsSet(0x90, 5) && IsSet(0x90, 4); }
        else { assert IsSet(0x80, 7) && !IsSet(0x80, 6) && !IsSet(0x80, 5) && !IsSet(0x80, 4); }
      }
    } else {
      if h {
        if c { assert !IsSet(0x30, 7) && !IsSet(0x30, 6) && IsSet(0x30, 5) && IsSet(0x30, 4); }
        else { assert !IsSet(0x20, 7) && !IsSet(0x20, 6) && IsSet(0x20, 5) && !IsSet(0x20, 4); }
      } else {
        if c { assert !IsSet(0x10, 7) && !IsSet(0x10, 6) && !IsSet(0x10, 5) && IsSet(0x10, 4); }
        else { assert !IsSet(0, 7) && !IsSet(0, 6) && !IsSet(0, 5) && !IsSet(0, 4); }
      }
    }
  }

  /** XOR: A := A ^ op; Z is set exactly when A equalled op, N, H and C are
      cleared, F's low nibble is zero, no other byte changes, and it costs 1. */
  lemma XorFacts(m: Machine, op: byte)
    requires WellFormed(m)
    ensures var t := XorR8(m, op);
            var f := Byte(t.0.regs, F);
            Byte(t.0.regs, A) == Xor8(Byte(m.regs, A), op)
            && (Zero(f) <==> Byte(m.regs, A) == op)
            && !Subtract(f) && !HalfCarry(f) && !Carry(f) && f % 0x10 == 0
            && t.1 == 1
    ensures var t := XorR8(m, op);
            forall q :: q != A && q != F ==> Byte(t.0.regs, q) == Byte(m.regs, q)
  {
    var a := Byte(m.regs, A);
    assert Pow2(8) == 0x100;
    XorZeroIff(a, op, 8);
    FlagBits(Xor8(a, op) == 0, false, false);
  }

  /** XOR A (0xAF) clears A and leaves F = 0x80, so AF reads 0x8000. */
  lemma XorAClearsA(m: Machine)
    requires WellFormed(m)
    ensures var s := Exec(m, 0xAF);
            s.r == Ok(1) && Byte(s.m.regs, A) == 0 && Byte(s.m.regs, F) == 0x80
            && Word(s.m.regs, AF) == 0x8000
            && (forall rr :: rr != AF ==> Word(s.m.regs, rr) == Word(m.regs, rr))
            && s.m.vram == m.vram
  {
    XorSelf(Byte(m.regs, A), 8);
    var s := Exec(m, 0xAF);
    WordFromBytes(s.m.regs, A, F);
  }

  /** BIT pos, op: A := op & (1 << pos), which is 2^pos or 0; Z is set exactly
      when that bit of op is clear, H is set, N is clear, C keeps its old value,
      F's low nibble is zero, and it costs 2. */
  lemma BitFacts(m: Machine, pos: bitIndex, op: byte)
    requires WellFormed(m)
    ensures var t := Bit(m, pos, op);
            var f := Byte(t.0.regs, F);
            Byte(t.0.regs, A) == (if IsSet(op, pos) then Pow2(pos) else 0)
            && (Zero(f) <==> !IsSet(op, pos)) && HalfCarry(f) && !Subtract(f)
            && (Carry(f) <==> Carry(Byte(m.regs, F))) && f % 0x10 == 0
            && t.1 == 2
    ensures var t := Bit(m, pos, op);
            forall q :: q != A && q != F ==> Byte(t.0.regs, q) == Byte(m.regs, q)
    ensures var t := Bit(m, pos, op);
            forall rr :: rr != AF ==> Word(t.0.regs, rr) == Word(m.regs, rr)
  {
    AndSingleBit(op, pos, 8);
    var a := And8(op, Mask(pos));
    assert a == (if IsSet(op, pos) then Pow2(pos) else 0);
    var regs := SetByte(m.regs, A, a);
    assert Byte(regs, F) == Byte(m.regs, F);
    var f := (if a == 0 then ZeroFlag else 0) + HalfCarryFlag + KeepCarry(Byte(regs, F));
    FlagBits(!IsSet(op, pos), true, Carry(Byte(m.regs, F)));
    assert Bit(m, pos, op) == (m.(regs := SetByte(regs, F, f)), 2);
  }

  /** The 0xCB table: 0x7C is BIT 7,H, which tests the top bit of H, sets H,
      clears N, keeps C, and changes no pair but AF and PC; any other second
      byte throws, with PC past both bytes. */
  lemma CbPrefixFacts(m: Machine)
    requires WellFormed(m) && Next8(m).r.Ok?
    ensures var next := Next8(m);
            var s := CbPrefix(m);
            var h := Byte(m.regs, H);
            if next.r.value == 0x7C then
              var f := Byte(s.m.regs, F);
              s == Done(Bit(next.m, 7, h))
              && s.r == Ok(2) && (Zero(f) <==> !IsSet(h, 7))
              && HalfCarry(f) && !Subtract(f) && (Carry(f) <==> Carry(Byte(m.regs, F)))
              && Byte(s.m.regs, A) == (if IsSet(h, 7) then 0x80 else 0)
              && Word(s.m.regs, PC) == (Word(m.regs, PC) + 1) % 0x1_0000
              && (forall rr :: rr != AF && rr != PC ==> Word(s.m.regs, rr) == Word(m.regs, rr))
              && s.m.vram == m.vram
            else
              s == Step(next.m, Err(UnknownCbOpcode(next.r.value)))
  {
    var next := Next8(m);
    if next.r.value == 0x7C {
      BitFacts(next.m, 7, Byte(next.m.regs, H));
    }
  }

  /** INC r (C, E, L or A): r := (r + 1) mod 256; Z is set exactly when A is
      zero afterwards, whichever register was incremented; H is never set; N
      is clear; C keeps its old value; nothing else changes; it costs 1. */
  lemma IncFacts(m: Machine, r: Reg8)
    requires WellFormed(m) && r != F
    ensures var t := IncR8(m, r);
            var f := Byte(t.0.regs, F);
            Byte(t.0.regs, r) == (Byte(m.regs, r) + 1) % 0x100
            && (Zero(f) <==> Byte(t.0.regs, A) == 0)
            && !HalfCarry(f) && !Subtract(f) && (Carry(f) <==> Carry(Byte(m.regs, F)))
            && f % 0x10 == 0 && t.1 == 1
    ensures var t := IncR8(m, r);
            forall q :: q != r && q != F ==> Byte(t.0.regs, q) == Byte(m.regs, q)
    ensures var t := IncR8(m, r);
            forall rr :: rr != Pair(r) && rr != AF ==> Word(t.0.regs, rr) == Word(m.regs, rr)
  {
    var regs := SetByte(m.regs, r, (Byte(m.regs, r) + 1) % 0x100);
    var f := IncFlags(Byte(regs, A), Byte(regs, r), Byte(regs, F));
    IncR8Result(m, r, regs, f);
    AndZero(Byte(regs, r), 8);
    assert Byte(regs, F) == Byte(m.regs, F);
    FlagBits(Byte(regs, A) == 0, false, Carry(Byte(m.regs, F)));
    var regs2 := SetByte(regs, F, f);
    assert Byte(regs2, F) == f && Byte(regs2, A) == Byte(regs, A) && Byte(regs2, r) == Byte(regs, r);
  }

  /** INC C with C = 0xFF and A = 1: C wraps to 0 but Z stays clear, because Z
      tests A. */
  lemma IncZeroTestsA(m: Machine)
    requires WellFormed(m) && Byte(m.regs, C) == 0xFF && Byte(m.regs, A) == 1
    ensures var s := Exec(m, 0x0C);
            s.r == Ok(1) && Byte(s.m.regs, C) == 0 && !Zero(Byte(s.m.regs, F))
  {
    IncFacts(m, C);
  }

  // ---- CALL and the stack ----

  /** A push with SP in 0x8002-0xA000 lowers SP by 2 and stores the word
      there, in video memory. */
  lemma Push16InVram(m: Machine, val: word)
    requires WellFormed(m) && 0x8002 <= Word(m.regs, SP) <= 0xA000
    ensures var sp := Word(m.regs, SP) - 2;
            Push16(m, val) == Step(m.(regs := SetWord(m.regs, SP, sp), vram := Write16(m.vram, sp, val).0), Ok(()))
  {
    var sp := Word(m.regs, SP) - 2;
    assert (Word(m.regs, SP) - 2) % 0x1_0000 == sp;
    assert Write16(m.vram, sp, val).1 == Ok(());
  }

  /** A word pushed with SP in 0x8002-0xA000 lands in video memory; popping it
      gives it back and restores SP and every other register. */
  lemma PushPopRoundTrip(m: Machine, val: word)
    requires WellFormed(m) && 0x8002 <= Word(m.regs, SP) <= 0xA000
    ensures var push := Push16(m, val);
            push.r.Ok? && Pop16(push.m).r == Ok(val)
            && (forall rr :: Word(Pop16(push.m).m.regs, rr) == Word(m.regs, rr))
  {
    var sp := Word(m.regs, SP) - 2;
    Write16ThenRead16(m.boot, m.vram, sp, val);
    var vram2 := Write16(m.vram, sp, val).0;
    var regs2 := SetWord(m.regs, SP, sp);
    Push16InVram(m, val);
    assert (sp + 2) % 0x1_0000 == sp + 2;
    assert Pop16(m.(regs := regs2, vram := vram2)) == Step(m.(regs := SetWord(regs2, SP, sp + 2), vram := vram2), Ok(val));
  }

  /** CALL a16 (0xCD) with the target readable and SP in 0x8002-0xA000: PC
      becomes the target, SP drops by 2, the stack holds the return address
      (the opcode's address + 3, low byte first), no other register and no
      other byte of video memory changes, and it costs 6. */
  lemma CallFacts(m: Machine)
    requires WellFormed(m)
    requires Read16(m.boot, m.vram, Word(m.regs, PC)).Ok?
    requires 0x8002 <= Word(m.regs, SP) <= 0xA000
    ensures var s := Exec(m, 0xCD);
            var sp := Word(m.regs, SP) - 2;
            var ret := (Word(m.regs, PC) + 2) % 0x1_0000;
            s.r == Ok(6)
            && Word(s.m.regs, PC) == Read16(m.boot, m.vram, Word(m.regs, PC)).value
            && Word(s.m.regs, SP) == sp
            && s.m.vram[sp - 0x8000] == ret % 0x100 && s.m.vram[sp + 1 - 0x8000] == ret / 0x100
            && Read16(s.m.boot, s.m.vram, sp) == Ok(ret)
            && (forall rr :: rr != PC && rr != SP ==> Word(s.m.regs, rr) == Word(m.regs, rr))
    ensures var s := Exec(m, 0xCD);
            var sp := Word(m.regs, SP) - 2;
            forall i :: 0 <= i < VramLength && i != sp - 0x8000 && i != sp + 1 - 0x8000 ==> s.m.vram[i] == m.vram[i]
  {
    CallD16Facts(m);
    assert Exec(m, 0xCD) == CallD16(m);
  }

  /** `CALL_D16_` itself, under the same conditions as `CallFacts`. */
  lemma CallD16Facts(m: Machine)
    requires WellFormed(m)
    requires Read16(m.boot, m.vram, Word(m.regs, PC)).Ok?
    requires 0x8002 <= Word(m.regs, SP) <= 0xA000
    ensures var s := CallD16(m);
            var sp := Word(m.regs, SP) - 2;
            var ret := (Word(m.regs, PC) + 2) % 0x1_0000;
            s.r == Ok(6)
            && Word(s.m.regs, PC) == Read16(m.boot, m.vram, Word(m.regs, PC)).value
            && Word(s.m.regs, SP) == sp
            && s.m.vram[sp - 0x8000] == ret % 0x100 && s.m.vram[sp + 1 - 0x8000] == ret / 0x100
            && Read16(s.m.boot, s.m.vram, sp) == Ok(ret)
            && (forall rr :: rr != PC && rr != SP ==> Word(s.m.regs, rr) == Word(m.regs, rr))
    ensures var s := CallD16(m);
            var sp := Word(m.regs, SP) - 2;
            forall i :: 0 <= i < VramLength && i != sp - 0x8000 && i != sp + 1 - 0x8000 ==> s.m.vram[i] == m.vram[i]
  {
    var pc := Word(m.regs, PC);
    var calladdr := Read16(m.boot, m.vram, pc).value;
    var sp := Word(m.regs, SP) - 2;
    var ret := (pc + 2) % 0x1_0000;
    var regs1 := SetWord(m.regs, PC, ret);
    assert Next16(m) == Step(m.(regs := regs1), Ok(calladdr));
    Write16ThenRead16(m.boot, m.vram, sp, ret);
    var vram2 := Write16(m.vram, sp, ret).0;
    var regs2 := SetWord(regs1, SP, sp);
    Push16InVram(m.(regs := regs1), ret);
    var regs3 := SetWord(regs2, PC, calladdr);
    assert CallD16(m) == Step(m.(regs := regs3, vram := vram2), Ok(6));
  }

  /** With SP = 0xFFFE (the value the DMG boot ROM sets) CALL throws: SP
      drops to 0xFFFC, which no store can reach, so the push faults and
      video memory is unchanged. */
  lemma CallFromHighStackFaults(m: Machine)
    requires WellFormed(m)
    requires Read16(m.boot, m.vram, Word(m.regs, PC)).Ok?
    requires Word(m.regs, SP) == 0xFFFE
    ensures var s := Exec(m, 0xCD);
            s.r == Err(WriteFault(0xFFFC)) && Word(s.m.regs, SP) == 0xFFFC && s.m.vram == m.vram
  {
    var target := Next16(m);
    assert Write8(m.vram, 0xFFFC, Word(target.m.regs, PC) % 0x100) == (m.vram, Err(WriteFault(0xFFFC)));
  }

  // ---- JR NZ ----

  /** `REG_F & kZeroFlag` is zero exactly when Z is clear. */
  lemma ZeroFlagTest(f: byte)
    ensures And8(f, ZeroFlag) == 0 <==> !Zero(f)
  {
    AndSingleBit(f, 7, 8);
    assert Pow2(7) == 0x80;
  }

  /** JR NZ (0x20) with Z clear: PC := PC after the displacement byte plus the
      signed displacement, mod 2^16; nothing else changes; it costs 3. */
  lemma JrNzTaken(m: Machine)
    requires WellFormed(m) && !Zero(Byte(m.regs, F))
    requires Read8(m.boot, m.vram, Word(m.regs, PC)).Ok?
    ensures var s := Exec(m, 0x20);
            var d := Signed(Read8(m.boot, m.vram, Word(m.regs, PC)).value);
            s.r == Ok(3) && Word(s.m.regs, PC) == (Word(m.regs, PC) + 1 + d) % 0x1_0000
            && (forall rr :: rr != PC ==> Word(s.m.regs, rr) == Word(m.regs, rr))
            && s.m.vram == m.vram
  {
    ZeroFlagTest(Byte(m.regs, F));
    JrAr8Facts(m);
    assert Exec(m, 0x20) == JrAr8(m);
  }

  /** JR r8 with its displacement byte readable. */
  lemma JrAr8Facts(m: Machine)
    requires WellFormed(m) && Read8(m.boot, m.vram, Word(m.regs, PC)).Ok?
    ensures var s := JrAr8(m);
            var d := Signed(Read8(m.boot, m.vram, Word(m.regs, PC)).value);
            s.r == Ok(3) && Word(s.m.regs, PC) == (Word(m.regs, PC) + 1 + d) % 0x1_0000
            && (forall rr :: rr != PC ==> Word(s.m.regs, rr) == Word(m.regs, rr))
            && s.m.vram == m.vram
  {
    var pc := Word(m.regs, PC);
    var b := Read8(m.boot, m.vram, pc).value;
    assert pc + 1 < 0x1_0000;
    var regs1 := SetWord(m.regs, PC, pc + 1);
    assert Next8(m) == Step(m.(regs := regs1), Ok(b));
    var regs2 := SetWord(regs1, PC, (pc + 1 + Signed(b)) % 0x1_0000);
    assert JrAr8(m) == Step(m.(regs := regs2), Ok(3));
  }

  /** JR NZ (0x20) with Z set: nothing changes, the displacement byte is not
      consumed (PC stays just past the opcode), and it costs 2. */
  lemma JrNzNotTaken(m: Machine)
    requires WellFormed(m) && Zero(Byte(m.regs, F))
    ensures Exec(m, 0x20) == Step(m, Ok(2))
  {
    ZeroFlagTest(Byte(m.regs, F));
  }

  // ---- loads and stores ----

  /** LD rr,d16 (0x01, 0x11, 0x21, 0x31): the immediate word goes into BC, DE,
      HL or SP; PC advances by 2; nothing else changes; it costs 3. */
  lemma LdR16D16Facts(m: Machine, op: byte)
    requires WellFormed(m) && (op == 0x01 || op == 0x11 || op == 0x21 || op == 0x31)
    requires Read16(m.boot, m.vram, Word(m.regs, PC)).Ok?
    ensures var dest := if op == 0x01 then BC else if op == 0x11 then DE else if op == 0x21 then HL else SP;
            var s := Exec(m, op);
            s.r == Ok(3)
            && Word(s.m.regs, dest) == Read16(m.boot, m.vram, Word(m.regs, PC)).value
            && Word(s.m.regs, PC) == (Word(m.regs, PC) + 2) % 0x1_0000
            && (forall rr :: rr != PC && rr != dest ==> Word(s.m.regs, rr) == Word(m.regs, rr))
            && s.m.vram == m.vram
  {
  }

  /** LD r,d8 (0x0E, 0x1E, 0x2E, 0x3E): the immediate byte goes into C, E, L
      or A; PC advances by 1; no other byte, SP or video memory changes; it
      costs 2. */
  lemma LdR8D8Facts(m: Machine, op: byte)
    requires WellFormed(m) && (op == 0x0E || op == 0x1E || op == 0x2E || op == 0x3E)
    requires Read8(m.boot, m.vram, Word(m.regs, PC)).Ok?
    ensures var dest := if op == 0x0E then C else if op == 0x1E then E else if op == 0x2E then L else A;
            var s := Exec(m, op);
            s.r == Ok(2)
            && Byte(s.m.regs, dest) == Read8(m.boot, m.vram, Word(m.regs, PC)).value
            && Word(s.m.regs, PC) == (Word(m.regs, PC) + 1) % 0x1_0000
            && (forall q :: q != dest ==> Byte(s.m.regs, q) == Byte(m.regs, q))
            && Word(s.m.regs, SP) == Word(m.regs, SP)
            && s.m.vram == m.vram
  {
    var dest := if op == 0x0E then C else if op == 0x1E then E else if op == 0x2E then L else A;
    assert Exec(m, op) == LdR8D8(m, dest);
  }

  /** LD A,(BC) (0x0A) and LD A,(DE) (0x1A): A receives the byte at the pair's
      address and nothing else changes, at cost 2; an unreadable address
      throws and changes nothing. */
  lemma LdAFromPairFacts(m: Machine, op: byte)
    requires WellFormed(m) && (op == 0x0A || op == 0x1A)
    ensures var addr := Word(m.regs, if op == 0x0A then BC else DE);
            var v := Read8(m.boot, m.vram, addr);
            var s := Exec(m, op);
            if v.Ok? then
              s.r == Ok(2) && Byte(s.m.regs, A) == v.value
              && (forall q :: q != A ==> Byte(s.m.regs, q) == Byte(m.regs, q))
              && (forall rr :: rr != AF ==> Word(s.m.regs, rr) == Word(m.regs, rr))
              && s.m.vram == m.vram
            else
              s == Step(m, Err(v.fault))
  {
    assert Exec(m, op) == LdR8Ar16(m, A, Word(m.regs, if op == 0x0A then BC else DE));
  }

  /** LD (HL),A (0x77): with HL in video memory, A is stored there at cost 2;
      with HL in the mirror, the byte lands in video memory and the
      instruction still throws. The registers never change. */
  lemma LdHlStoreFacts(m: Machine)
    requires WellFormed(m)
    ensures var hl := Word(m.regs, HL);
            var s := Exec(m, 0x77);
            s.m.regs == m.regs
            && (0x8000 <= hl < 0xA000 ==> s.r == Ok(2) && s.m.vram == m.vram[hl - 0x8000 := Byte(m.regs, A)])
            && (0xE000 <= hl < 0xFE00 ==> s.r == Err(WriteFault(hl)) && s.m.vram == m.vram[hl - 0xE000 := Byte(m.regs, A)])
  {
    assert Exec(m, 0x77) == LdAr16R8(m, Word(m.regs, HL), Byte(m.regs, A));
  }

  /** LDI (HL),A (0x22) and LDD (HL),A (0x32) with HL in video memory: A is
      stored at HL's old value, HL moves by +1 or -1 mod 2^16, nothing else
      changes, and it costs 2. */
  lemma LdiLddStore(m: Machine, op: byte)
    requires WellFormed(m) && (op == 0x22 || op == 0x32)
    requires 0x8000 <= Word(m.regs, HL) < 0xA000
    ensures var hl := Word(m.regs, HL);
            var s := Exec(m, op);
            s.r == Ok(2)
            && s.m.vram == m.vram[hl - 0x8000 := Byte(m.regs, A)]
            && Word(s.m.regs, HL) == (if op == 0x22 then hl + 1 else hl - 1)
            && (forall rr :: rr != HL ==> Word(s.m.regs, rr) == Word(m.regs, rr))
  {
  }

  /** LDI (HL),A and LDD (HL),A with HL in the echo window: the byte lands in
      video memory, the instruction throws, and HL and every other register
      keep their values. */
  lemma LdiLddMirrorStore(m: Machine, op: byte)
    requires WellFormed(m) && (op == 0x22 || op == 0x32)
    requires 0xE000 <= Word(m.regs, HL) < 0xFE00
    ensures var hl := Word(m.regs, HL);
            var s := Exec(m, op);
            s.r == Err(WriteFault(hl)) && s.m.regs == m.regs
            && s.m.vram == m.vram[hl - 0xE000 := Byte(m.regs, A)]
  {
  }

  /** LDI A,(HL) (0x2A) and LDD A,(HL) (0x3A) with HL readable: A receives the
      byte at HL's old value, HL moves by +1 or -1 mod 2^16, F and the other
      pairs are unchanged, and it costs 2. */
  lemma LdiLddLoad(m: Machine, op: byte)
    requires WellFormed(m) && (op == 0x2A || op == 0x3A)
    requires Read8(m.boot, m.vram, Word(m.regs, HL)).Ok?
    ensures var hl := Word(m.regs, HL);
            var s := Exec(m, op);
            s.r == Ok(2)
            && Byte(s.m.regs, A) == Read8(m.boot, m.vram, hl).value
            && Byte(s.m.regs, F) == Byte(m.regs, F)
            && Word(s.m.regs, HL) == (if op == 0x2A then hl + 1 else hl - 1) % 0x1_0000
            && (forall rr :: rr != HL && rr != AF ==> Word(s.m.regs, rr) == Word(m.regs, rr))
            && s.m.vram == m.vram
  {
  }

  /** LD (0xFF00+n),A (0xE0) and LD (0xFF00+C),A (0xE2) always throw: the
      whole high page lies beyond the mirror and is not writable. Video memory
      is unchanged. */
  lemma HighPageStoresFault(m: Machine)
    requires WellFormed(m)
    ensures Exec(m, 0xE2) == Step(m, Err(WriteFault(0xFF00 + Byte(m.regs, C))))
    ensures var next := Next8(m);
            next.r.Ok? ==> Exec(m, 0xE0) == Step(next.m, Err(WriteFault(0xFF00 + next.r.value)))
  {
  }

  // ---- the dispatcher ----

  /** An opcode outside the primary table throws `UnknownOpcode` and changes
      nothing; an opcode inside it never raises that fault. */
  lemma UnknownOpcodeIff(m: Machine, op: byte)
    requires WellFormed(m)
    ensures Exec(m, op).r == Err(UnknownOpcode(op)) <==> op !in Opcodes
    ensures op !in Opcodes ==> Exec(m, op).m == m
  {
  }

  /** The dispatch of the table entries whose handler takes no operand from
      the dispatcher beyond the register it names. */
  lemma ExecTable(m: Machine, op: byte)
    requires WellFormed(m)
    ensures op == 0x00 ==> Exec(m, op) == Step(m, Ok(1))
    ensures op == 0xFB ==> Exec(m, op) == Step(m, Ok(1))
    ensures op == 0x0C ==> Exec(m, op) == Done(IncR8(m, C))
    ensures op == 0x1C ==> Exec(m, op) == Done(IncR8(m, E))
    ensures op == 0x2C ==> Exec(m, op) == Done(IncR8(m, L))
    ensures op == 0x3C ==> Exec(m, op) == Done(IncR8(m, A))
    ensures op == 0xCB ==> Exec(m, op) == CbPrefix(m)
  {
  }

  /** A fetched opcode outside the table ends the instruction stream: this
      call and every later one report the fault. */
  lemma UnknownOpcodeStops(m: Machine, n: nat)
    requires WellFormed(m) && m.optime == 0 && n >= 1
    requires Next8(m).r.Ok? && Next8(m).r.value !in Opcodes
    ensures Cycle(m).r == Err(UnknownOpcode(Next8(m).r.value))
    ensures RunCycles(m, n) == Cycle(m)
  {
    var op := Next8(m).r.value;
    UnknownOpcodeIff(Next8(m).m.(opcode := op), op);
    assert RunCycles(m, 1) == Cycle(m);
    RunCyclesStopsAtFault(m, 1, n);
  }

  // ---- an invariant of the flag register ----

  /** The low nibble of F is always zero: no instruction sets it. */
  predicate FlagNibbleClear(m: Machine)
    requires WellFormed(m)
  {
    Byte(m.regs, F) % 0x10 == 0
  }

  /** Every instruction keeps F's low nibble clear, whether it completes or throws. */
  lemma ExecKeepsFlagNibble(m: Machine, op: byte)
    requires WellFormed(m) && FlagNibbleClear(m)
    ensures FlagNibbleClear(Exec(m, op).m)
  {
    if op == 0xAF {
      XorFacts(m, Byte(m.regs, A));
      assert Exec(m, op) == Done(XorR8(m, Byte(m.regs, A)));
    } else if op == 0x0C || op == 0x1C || op == 0x2C || op == 0x3C {
      var r := if op == 0x0C then C else if op == 0x1C then E else if op == 0x2C then L else A;
      assert Exec(m, op) == Done(IncR8(m, r));
      IncFacts(m, r);
    } else if op == 0xCB {
      CbPrefixKeepsFlagNibble(m);
      assert Exec(m, op) == CbPrefix(m);
    } else {
      ExecKeepsFlags(m, op);
    }
  }

  /** The 0xCB table keeps F's low nibble clear. */
  lemma CbPrefixKeepsFlagNibble(m: Machine)
    requires WellFormed(m) && FlagNibbleClear(m)
    ensures FlagNibbleClear(CbPrefix(m).m)
  {
    var next := Next8(m);
    if next.r.Ok? && next.r.value == 0x7C {
      BitFacts(next.m, 7, Byte(next.m.regs, H));
    }
  }

  /** Every instruction other than XOR, INC and the 0xCB table leaves F as it was. */
  lemma ExecKeepsFlags(m: Machine, op: byte)
    requires WellFormed(m)
    requires op != 0xAF && op != 0x0C && op != 0x1C && op != 0x2C && op != 0x3C && op != 0xCB
    ensures Byte(Exec(m, op).m.regs, F) == Byte(m.regs, F)
  {
    var s := Exec(m, op);
    if op == 0xCD {
      assert s == CallD16(m);
    } else if op == 0x20 {
      assert s == JrCondAr8(m, And8(Byte(m.regs, F), ZeroFlag) == 0);
    } else if op == 0x01 || op == 0x11 || op == 0x21 || op == 0x31 {
      var dest := if op == 0x01 then BC else if op == 0x11 then DE else if op == 0x21 then HL else SP;
      assert s == LdR16D16(m, dest);
    } else if op == 0x0A || op == 0x1A {
      assert s == LdR8Ar16(m, A, Word(m.regs, if op == 0x0A then BC else DE));
    } else if op == 0x0E || op == 0x1E || op == 0x2E || op == 0x3E {
      var dest := if op == 0x0E then C else if op == 0x1E then E else if op == 0x2E then L else A;
      assert s == LdR8D8(m, dest);
    } else if op == 0x3A {
      assert s == LddD8Ar16(m, A, HL);
    } else if op == 0x2A {
      assert s == LdiD8Ar16(m, A, HL);
    } else if op == 0x32 {
      assert s == LddAr16D8(m, HL, Byte(m.regs, A));
    } else if op == 0x22 {
      assert s == LdiAr16D8(m, HL, Byte(m.regs, A));
    }
  }

  /** From any machine whose F has a clear low nibble (the reset state has
      F = 0), every sequence of machine cycles keeps it clear. */
  lemma {:induction false} RunCyclesKeepFlagNibble(m: Machine, n: nat)
    requires WellFormed(m) && FlagNibbleClear(m)
    ensures FlagNibbleClear(RunCycles(m, n).m)
    decreases n
  {
    if n > 0 {
      RunCyclesKeepFlagNibble(m, n - 1);
      NextCycleKeepsFlagNibble(m, n);
    }
  }

  /** The inductive step of `RunCyclesKeepFlagNibble`. */
  lemma NextCycleKeepsFlagNibble(m: Machine, n: nat)
    requires WellFormed(m) && n > 0
    ensures FlagNibbleClear(RunCycles(m, n - 1).m) ==> FlagNibbleClear(RunCycles(m, n).m)
  {
    var prev := RunCycles(m, n - 1);
    if prev.r.Ok? && FlagNibbleClear(prev.m) {
      CycleKeepsFlagNibble(prev.m);
    }
  }

  lemma CycleKeepsFlagNibble(m: Machine)
    requires WellFormed(m) && FlagNibbleClear(m)
    ensures FlagNibbleClear(Cycle(m).m)
  {
    if m.optime == 0 {
      var fetch := Next8(m);
      if fetch.r.Ok? {
        ExecKeepsFlagNibble(fetch.m.(opcode := fetch.r.value), fetch.r.value);
      }
    }
  }
}

=== FILE: instructions.dfy ===
/** The instruction set of `GBCPU` as functions over a machine value: the
    fetch and stack helpers, every handler, the 0xCB table, the primary
    dispatcher `Exec_` and the `optime_` countdown of `DoMachineCycle`.
    A handler that can fault returns the state reached when the C++ code
    throws (a PC already advanced, a mirror store already done) with the
    fault; nothing runs after a fault. */
module Instructions {
  import opened Bits
  import opened Faults
  import opened Registers
  import opened Memory

  const ZeroFlag: byte := 0x80
  const SubtractFlag: byte := 0x40
  const HalfCarryFlag: byte := 0x20
  const CarryFlag: byte := 0x10

  predicate Zero(f: byte) { IsSet(f, 7) }
  predicate Subtract(f: byte) { IsSet(f, 6) }
  predicate HalfCarry(f: byte) { IsSet(f, 5) }
  predicate Carry(f: byte) { IsSet(f, 4) }

  /** Everything an instruction can observe or change: the boot image, the
      register file, the video memory, and the `optime_` and `opcode_` fields. */
  datatype Machine = Machine(boot: seq<byte>, regs: seq<word>, vram: seq<byte>, optime: nat, opcode: byte)

  predicate WellFormed(m: Machine)
  {
    |m.boot| == BootRomLength && IsFile(m.regs) && |m.vram| == VramLength
  }

  /** A machine after a step, and the step's value or fault. */
  datatype Step<T> = Step(m: Machine, r: Result<T>)

  /** `m2` differs from `m` at most in its registers and video memory. */
  predicate Framed(m: Machine, m2: Machine)
  {
    WellFormed(m2) && m2.boot == m.boot && m2.optime == m.optime && m2.opcode == m.opcode
  }

  function Done(t: (Machine, nat)): Step<nat>
  {
    Step(t.0, Ok(t.1))
  }

  /** `REG_F & kCarryFlag`: the old carry bit, in place. */
  function KeepCarry(f: byte): (c: byte)
    ensures c == if Carry(f) then CarryFlag else 0
  {
    AndSingleBit(f, 4, 8);
    And8(f, CarryFlag)
  }

  /** A C++ bool promoted to an integer operand. */
  function FromBool(b: bool): (i: byte)
    ensures i == 1 <==> b
    ensures i == 0 <==> !b
  {
    if b then 1 else 0
  }

  /** The signed value of a displacement byte copied into an int8_t. */
  function Signed(b: byte): (d: int)
    ensures -128 <= d < 128
    ensures (d + 0x100) % 0x100 == b
  {
    if b < 0x80 then b else b - 0x100
  }

  // ---- fetch and stack helpers ----

  /** `Next8_`: the byte at PC; PC advances only when the read succeeds. */
  function Next8(m: Machine): (s: Step<byte>)
    requires WellFormed(m)
    ensures Framed(m, s.m) && s.m.vram == m.vram
    ensures s.r.Err? ==> s.m == m && IsAccessFault(s.r.fault)
    ensures s.r.Ok? <==> Read8(m.boot, m.vram, Word(m.regs, PC)).Ok?
    ensures s.r.Ok? ==> s.r == Read8(m.boot, m.vram, Word(m.regs, PC))
                        && Word(s.m.regs, PC) == (Word(m.regs, PC) + 1) % 0x1_0000
                        && forall rr :: rr != PC ==> Word(s.m.regs, rr) == Word(m.regs, rr)
  {
    var pc := Word(m.regs, PC);
    match Read8(m.boot, m.vram, pc)
    case Err(f) => Step(m, Err(f))
    case Ok(v) => Step(m.(regs := SetWord(m.regs, PC, (pc + 1) % 0x1_0000)), Ok(v))
  }

  /** `Next16_`: the little-endian word at PC; PC advances by 2 on success. */
  function Next16(m: Machine): (s: Step<word>)
    requires WellFormed(m)
    ensures Framed(m, s.m) && s.m.vram == m.vram
    ensures s.r.Err? ==> s.m == m && IsAccessFault(s.r.fault)
    ensures s.r.Ok? <==> Read16(m.boot, m.vram, Word(m.regs, PC)).Ok?
    ensures s.r.Ok? ==> s.r == Read16(m.boot, m.vram, Word(m.regs, PC))
                        && Word(s.m.regs, PC) == (Word(m.regs, PC) + 2) % 0x1_0000
                        && forall rr :: rr != PC ==> Word(s.m.regs, rr) == Word(m.regs, rr)
  {
    var pc := Word(m.regs, PC);
    match Read16(m.boot, m.vram, pc)
    case Err(f) => Step(m, Err(f))
    case Ok(v) => Step(m.(regs := SetWord(m.regs, PC, (pc + 2) % 0x1_0000)), Ok(v))
  }

  /** `Push16_`: SP drops by 2 (even when the store then faults), then the word
      is stored little-endian at the new SP. */
  function Push16(m: Machine, val: word): (s: Step<()>)
    requires WellFormed(m)
    ensures Framed(m, s.m)
    ensures Word(s.m.regs, SP) == (Word(m.regs, SP) - 2) % 0x1_0000
    ensures forall rr :: rr != SP ==> Word(s.m.regs, rr) == Word(m.regs, rr)
    ensures s.r.Err? ==> IsAccessFault(s.r.fault)
  {
    var sp := (Word(m.regs, SP) - 2) % 0x1_0000;
    var w := Write16(m.vram, sp, val);
    Step(m.(regs := SetWord(m.regs, SP, sp), vram := w.0), w.1)
  }

  /** `Pop16_`: the little-endian word at SP; SP rises by 2 on success. */
  function Pop16(m: Machine): (s: Step<word>)
    requires WellFormed(m)
    ensures Framed(m, s.m) && s.m.vram == m.vram
    ensures s.r.Err? ==> s.m == m && IsAccessFault(s.r.fault)
  {
    var sp := Word(m.regs, SP);
    match Read16(m.boot, m.vram, sp)
    case Err(f) => Step(m, Err(f))
    case Ok(v) => Step(m.(regs := SetWord(m.regs, SP, (sp + 2) % 0x1_0000)), Ok(v))
  }

  // ---- handlers ----

  /** `BIT_`: A := op & (1 << pos); F := Z if that is zero, plus H, plus the old C. */
  function Bit(m: Machine, pos: bitIndex, op: byte): (t: (Machine, nat))
    requires WellFormed(m)
    ensures Framed(m, t.0) && t.0.vram == m.vram
    ensures forall rr :: rr != AF ==> Word(t.0.regs, rr) == Word(m.regs, rr)
  {
    var regs := SetByte(m.regs, A, And8(op, Mask(pos)));
    var f := (if Byte(regs, A) == 0 then ZeroFlag else 0) + HalfCarryFlag + KeepCarry(Byte(regs, F));
    (m.(regs := SetByte(regs, F, f)), 2)
  }

  /** `CALL_D16_`: read the target, push the PC that follows it, jump. */
  function CallD16(m: Machine): (s: Step<nat>)
    requires WellFormed(m)
    ensures Framed(m, s.m)
    ensures s.r.Ok? ==> s.r.value == 6
    ensures s.r.Err? ==> IsAccessFault(s.r.fault)
  {
    var target := Next16(m);
    match target.r
    case Err(f) => Step(target.m, Err(f))
    case Ok(calladdr) =>
      var push := Push16(target.m, Word(target.m.regs, PC));
      match push.r
      case Err(f) => Step(push.m, Err(f))
      case Ok(_) => Step(push.m.(regs := SetWord(push.m.regs, PC, calladdr)), Ok(6))
  }

  /** `EI_`: a stub that only takes its cycle. */
  function Ei(m: Machine): (t: (Machine, nat))
    ensures t.0 == m && t.1 == 1
  {
    (m, 1)
  }

  /** `INC_R8_`, as written: the operand wraps to (op + 1) mod 256; Z tests A,
      not the operand; the half-carry test `op & 0x00FF == 0` parses as
      `op & (0x00FF == 0)`, that is `op & 0`, so H is never set; C is kept. */
  function IncR8(m: Machine, r: Reg8): (t: (Machine, nat))
    requires WellFormed(m)
    ensures Framed(m, t.0) && t.0.vram == m.vram
    ensures forall rr :: rr != Pair(r) && rr != AF ==> Word(t.0.regs, rr) == Word(m.regs, rr)
  {
    var regs := SetByte(m.regs, r, (Byte(m.regs, r) + 1) % 0x100);
    (m.(regs := SetByte(regs, F, IncFlags(Byte(regs, A), Byte(regs, r), Byte(regs, F)))), 1)
  }

  /** `IncR8` in two steps: the operand store, then the flag store. */
  lemma IncR8Result(m: Machine, r: Reg8, regs: seq<word>, f: byte)
    requires WellFormed(m)
    requires regs == SetByte(m.regs, r, (Byte(m.regs, r) + 1) % 0x100)
    requires f == IncFlags(Byte(regs, A), Byte(regs, r), Byte(regs, F))
    ensures IncR8(m, r) == (m.(regs := SetByte(regs, F, f)), 1)
  {
  }

  /** The flag byte `INC_R8_` writes, from A and the operand after the
      increment and the old F. */
  function IncFlags(a: byte, op: byte, f: byte): byte
  {
    (if a == 0 then ZeroFlag else 0)
    + (if And8(op, FromBool(0x00FF == 0)) != 0 then HalfCarryFlag else 0)
    + KeepCarry(f)
  }

  /** `JR_AR8_`: read a signed displacement and add it to the PC that follows it. */
  function JrAr8(m: Machine): (s: Step<nat>)
    requires WellFormed(m)
    ensures Framed(m, s.m) && s.m.vram == m.vram
    ensures s.r.Ok? ==> s.r.value == 3
    ensures s.r.Err? ==> IsAccessFault(s.r.fault)
  {
    var next := Next8(m);
    match next.r
    case Err(f) => Step(next.m, Err(f))
    case Ok(b) =>
      var pc := Word(next.m.regs, PC);
      Step(next.m.(regs := SetWord(next.m.regs, PC, (pc + Signed(b)) % 0x1_0000)), Ok(3))
  }

  /** `JR_Cond_AR8_`: a jump when the condition holds; otherwise cost 2 and
      the displacement byte is left unread. */
  function JrCondAr8(m: Machine, cond: bool): (s: Step<nat>)
    requires WellFormed(m)
    ensures Framed(m, s.m) && s.m.vram == m.vram
    ensures !cond ==> s == Step(m, Ok(2))
    ensures s.r.Err? ==> IsAccessFault(s.r.fault)
  {
    if cond then JrAr8(m) else Step(m, Ok(2))
  }

  /** `LD_AD8_R8_`: store at 0xFF00 plus an immediate byte. */
  function LdAd8R8(m: Machine, src: byte): (s: Step<nat>)
    requires WellFormed(m)
    ensures Framed(m, s.m)
    ensures s.r.Ok? ==> s.r.value == 3
    ensures s.r.Err? ==> IsAccessFault(s.r.fault)
  {
    var next := Next8(m);
    match next.r
    case Err(f) => Step(next.m, Err(f))
    case Ok(n) =>
      var w := Write8(next.m.vram, 0xFF00 + n, src);
      Step(next.m.(vram := w.0), Then(w.1, 3))
  }

  /** `LD_AR8_R8_`: store at 0xFF00 plus a register byte. */
  function LdAr8R8(m: Machine, destAddr: byte, src: byte): (s: Step<nat>)
    requires WellFormed(m)
    ensures Framed(m, s.m) && s.m.regs == m.regs
    ensures s.r.Ok? ==> s.r.value == 2
    ensures s.r.Err? ==> IsAccessFault(s.r.fault)
  {
    var w := Write8(m.vram, 0xFF00 + destAddr, src);
    Step(m.(vram := w.0), Then(w.1, 2))
  }

  /** `LD_AR16_R8_`: store at a 16-bit address. */
  function LdAr16R8(m: Machine, destAddr: word, src: byte): (s: Step<nat>)
    requires WellFormed(m)
    ensures Framed(m, s.m) && s.m.regs == m.regs
    ensures s.r.Ok? ==> s.r.value == 2
    ensures s.r.Err? ==> IsAccessFault(s.r.fault)
  {
    var w := Write8(m.vram, destAddr, src);
    Step(m.(vram := w.0), Then(w.1, 2))
  }

  /** `LD_R8_AR16_`: load a register byte from a 16-bit address. */
  function LdR8Ar16(m: Machine, dest: Reg8, srcAddr: word): (s: Step<nat>)
    requires WellFormed(m)
    ensures Framed(m, s.m) && s.m.vram == m.vram
    ensures s.r.Ok? ==> s.r.value == 2
    ensures s.r.Err? ==> s.m == m && IsAccessFault(s.r.fault)
  {
    match Read8(m.boot, m.vram, srcAddr)
    case Err(f) => Step(m, Err(f))
    case Ok(v) => Step(m.(regs := SetByte(m.regs, dest, v)), Ok(2))
  }

  /** `LD_R8_D8_`: load a register byte from an immediate byte. */
  function LdR8D8(m: Machine, dest: Reg8): (s: Step<nat>)
    requires WellFormed(m)
    ensures Framed(m, s.m) && s.m.vram == m.vram
    ensures s.r.Ok? ==> s.r.value == 2
    ensures s.r.Err? ==> IsAccessFault(s.r.fault)
  {
    var next := Next8(m);
    match next.r
    case Err(f) => Step(next.m, Err(f))
    case Ok(v) => Step(next.m.(regs := SetByte(next.m.regs, dest, v)), Ok(2))
  }

  /** `LD_R16_D16_`: load a register word from an immediate word. */
  function LdR16D16(m: Machine, dest: Reg16): (s: Step<nat>)
    requires WellFormed(m)
    ensures Framed(m, s.m) && s.m.vram == m.vram
    ensures s.r.Ok? ==> s.r.value == 3
    ensures s.r.Err? ==> IsAccessFault(s.r.fault)
  {
    var next := Next16(m);
    match next.r
    case Err(f) => Step(next.m, Err(f))
    case Ok(v) => Step(next.m.(regs := SetWord(next.m.regs, dest, v)), Ok(3))
  }

  /** `LDD_AR16_D8_`: store at the address register, then decrement it. */
  function LddAr16D8(m: Machine, destAddr: Reg16, src: byte): (s: Step<nat>)
    requires WellFormed(m)
    ensures Framed(m, s.m)
    ensures s.r.Ok? ==> s.r.value == 2
    ensures s.r.Err? ==> s.m.regs == m.regs && IsAccessFault(s.r.fault)
    ensures s.m.vram == Write8(m.vram, Word(m.regs, destAddr), src).0
  {
    var addr := Word(m.regs, destAddr);
    var w := Write8(m.vram, addr, src);
    if w.1.Err? then Step(m.(vram := w.0), Err(w.1.fault))
    else Step(m.(vram := w.0, regs := SetWord(m.regs, destAddr, (addr - 1) % 0x1_0000)), Ok(2))
  }

  /** `LDD_D8_AR16_`: load from the address register, then decrement it. */
  function LddD8Ar16(m: Machine, dest: Reg8, srcAddr: Reg16): (s: Step<nat>)
    requires WellFormed(m)
    ensures Framed(m, s.m) && s.m.vram == m.vram
    ensures s.r.Ok? ==> s.r.value == 2
    ensures s.r.Err? ==> s.m == m && IsAccessFault(s.r.fault)
  {
    match Read8(m.boot, m.vram, Word(m.regs, srcAddr))
    case Err(f) => Step(m, Err(f))
    case Ok(v) =>
      var regs := SetByte(m.regs, dest, v);
      Step(m.(regs := SetWord(regs, srcAddr, (Word(regs, srcAddr) - 1) % 0x1_0000)), Ok(2))
  }

  /** `LddD8Ar16` after a successful read, in two steps: the load, then the
      decrement. */
  lemma LddD8Ar16Result(m: Machine, dest: Reg8, srcAddr: Reg16, v: byte, regs: seq<word>, addr: word)
    requires WellFormed(m) && Read8(m.boot, m.vram, Word(m.regs, srcAddr)) == Ok(v)
    requires regs == SetByte(m.regs, dest, v)
    requires addr == (Word(regs, srcAddr) - 1) % 0x1_0000
    ensures LddD8Ar16(m, dest, srcAddr) == Step(m.(regs := SetWord(regs, srcAddr, addr)), Ok(2))
  {
  }

  /** `LDI_AR16_D8_`: store at the address register, then increment it. */
  function LdiAr16D8(m: Machine, destAddr: Reg16, src: byte): (s: Step<nat>)
    requires WellFormed(m)
    ensures Framed(m, s.m)
    ensures s.r.Ok? ==> s.r.value == 2
    ensures s.r.Err? ==> s.m.regs == m.regs && IsAccessFault(s.r.fault)
    ensures s.m.vram == Write8(m.vram, Word(m.regs, destAddr), src).0
  {
    var addr := Word(m.regs, destAddr);
    var w := Write8(m.vram, addr, src);
    if w.1.Err? then Step(m.(vram := w.0), Err(w.1.fault))
    else Step(m.(vram := w.0, regs := SetWord(m.regs, destAddr, (addr + 1) % 0x1_0000)), Ok(2))
  }

  /** `LDI_D8_AR16_`: load from the address register, then increment it. */
  function LdiD8Ar16(m: Machine, dest: Reg8, srcAddr: Reg16): (s: Step<nat>)
    requires WellFormed(m)
    ensures Framed(m, s.m) && s.m.vram == m.vram
    ensures s.r.Ok? ==> s.r.value == 2
    ensures s.r.Err? ==> s.m == m && IsAccessFault(s.r.fault)
  {
    match Read8(m.boot, m.vram, Word(m.regs, srcAddr))
    case Err(f) => Step(m, Err(f))
    case Ok(v) =>
      var regs := SetByte(m.regs, dest, v);
      Step(m.(regs := SetWord(regs, srcAddr, (Word(regs, srcAddr) + 1) % 0x1_0000)), Ok(2))
  }

  /** `LdiD8Ar16` after a successful read, in two steps: the load, then the
      increment. */
  lemma LdiD8Ar16Result(m: Machine, dest: Reg8, srcAddr: Reg16, v: byte, regs: seq<word>, addr: word)
    requires WellFormed(m) && Read8(m.boot, m.vram, Word(m.regs, srcAddr)) == Ok(v)
    requires regs == SetByte(m.regs, dest, v)
    requires addr == (Word(regs, srcAddr) + 1) % 0x1_0000
    ensures LdiD8Ar16(m, dest, srcAddr) == Step(m.(regs := SetWord(regs, srcAddr, addr)), Ok(2))
  {
  }

  /** `NOP_`. */
  function Nop(m: Machine): (t: (Machine, nat))
    ensures t.0 == m && t.1 == 1
  {
    (m, 1)
  }

  /** `XOR_R8_`: A ^= op; F := Z if A is now zero, every other flag cleared. */
  function XorR8(m: Machine, op: byte): (t: (Machine, nat))
    requires WellFormed(m)
    ensures Framed(m, t.0) && t.0.vram == m.vram
  {
    var regs := SetByte(m.regs, A, Xor8(Byte(m.regs, A), op));
    (m.(regs := SetByte(regs, F, if Byte(regs, A) == 0 then ZeroFlag else 0)), 1)
  }

  /** `CB_Prefix_`: the second table holds only 0x7C, BIT 7,H. */
  function CbPrefix(m: Machine): (s: Step<nat>)
    requires WellFormed(m)
    ensures Framed(m, s.m) && s.m.vram == m.vram
    ensures s.r.Ok? ==> s.r.value == 2
    ensures s.r.Err? ==> IsAccessFault(s.r.fault) || s.r.fault.UnknownCbOpcode?
  {
    var next := Next8(m);
    match next.r
    case Err(f) => Step(next.m, Err(f))
    case Ok(op) =>
      if op == 0x7C then Done(Bit(next.m, 7, Byte(next.m.regs, H)))
      else Step(next.m, Err(UnknownCbOpcode(op)))
  }

  /** The opcodes of the primary table. */
  const Opcodes: set<int> := {
    0xCD, 0xFB, 0x0C, 0x1C, 0x2C, 0x3C, 0x20,
    0x01, 0x11, 0x21, 0x31, 0x0A, 0x1A, 0x0E, 0x1E, 0x2E, 0x3E,
    0x77, 0xE0, 0xE2, 0x32, 0x3A, 0x22, 0x2A, 0x00, 0xAF, 0xCB }

  /** `Exec_`: dispatch on the opcode (PC already past it) and return the
      instruction's cost in machine cycles. */
  function Exec(m: Machine, opcode: byte): (s: Step<nat>)
    requires WellFormed(m)
    ensures Framed(m, s.m)
    ensures s.r.Ok? ==> 1 <= s.r.value <= 6
    ensures s.r.Err? ==> IsAccessFault(s.r.fault) || s.r.fault.UnknownCbOpcode?
                         || s.r.fault == UnknownOpcode(opcode)
  {
    match opcode
    // CALL
    case 0xCD => CallD16(m)
    // EI
    case 0xFB => Done(Ei(m))
    // INC
    case 0x0C => Done(IncR8(m, C))
    case 0x1C => Done(IncR8(m, E))
    case 0x2C => Done(IncR8(m, L))
    case 0x3C => Done(IncR8(m, A))
    // JR
    case 0x20 => JrCondAr8(m, And8(Byte(m.regs, F), ZeroFlag) == 0)
    // LD
    case 0x01 => LdR16D16(m, BC)
    case 0x11 => LdR16D16(m, DE)
    case 0x21 => LdR16D16(m, HL)
    case 0x31 => LdR16D16(m, SP)
    case 0x0A => LdR8Ar16(m, A, Word(m.regs, BC))
    case 0x1A => LdR8Ar16(m, A, Word(m.regs, DE))
    case 0x0E => LdR8D8(m, C)
    case 0x1E => LdR8D8(m, E)
    case 0x2E => LdR8D8(m, L)
    case 0x3E => LdR8D8(m, A)
    case 0x77 => LdAr16R8(m, Word(m.regs, HL), Byte(m.regs, A))
    case 0xE0 => LdAd8R8(m, Byte(m.regs, A))
    case 0xE2 => LdAr8R8(m, Byte(m.regs, C), Byte(m.regs, A))
    // LDD
    case 0x32 => LddAr16D8(m, HL, Byte(m.regs, A))
    case 0x3A => LddD8Ar16(m, A, HL)
    // LDI
    case 0x22 => LdiAr16D8(m, HL, Byte(m.regs, A))
    case 0x2A => LdiD8Ar16(m, A, HL)
    // NOP
    case 0x00 => Done(Nop(m))
    // XOR
    case 0xAF => Done(XorR8(m, Byte(m.regs, A)))
    // CB prefix
    case 0xCB => CbPrefix(m)
    case _ => Step(m, Err(UnknownOpcode(opcode)))
  }

  /** The first half of `DoMachineCycle` when `optime_` is 0: fetch the opcode
      into `opcode_`, execute it and load its cost into `optime_`. */
  function FetchExec(m: Machine): (s: Step<()>)
    requires WellFormed(m)
    ensures WellFormed(s.m) && s.m.boot == m.boot
  {
    var fetch := Next8(m);
    match fetch.r
    case Err(f) => Step(fetch.m, Err(f))
    case Ok(op) =>
      var ex := Exec(fetch.m.(opcode := op), op);
      match ex.r
      case Err(f) => Step(ex.m, Err(f))
      case Ok(cost) => Step(ex.m.(optime := ex.m.optime + cost), Ok(()))
  }

  /** `DoMachineCycle`: fetch and execute only when `optime_` is 0, then count
      `optime_` down by one; every cost is at least 1, so it never underflows. */
  function Cycle(m: Machine): (s: Step<()>)
    requires WellFormed(m)
    ensures WellFormed(s.m) && s.m.boot == m.boot
  {
    if m.optime == 0 then
      var ex := FetchExec(m);
      if ex.r.Err? then ex
      else
        assert ex.m.optime >= 1;
        Step(ex.m.(optime := ex.m.optime - 1), Ok(()))
    else
      Step(m.(optime := m.optime - 1), Ok(()))
  }

  /** n calls of `DoMachineCycle`, stopping at the first one that throws. */
  function RunCycles(m: Machine, n: nat): (s: Step<()>)
    requires WellFormed(m)
    ensures WellFormed(s.m) && s.m.boot == m.boot
    decreases n
  {
    if n == 0 then Step(m, Ok(()))
    else
      var prev := RunCycles(m, n - 1);
      if prev.r.Err? then prev else Cycle(prev.m)
  }

  /** `GBCPU::Start`: PC := 0. */
  function Start(m: Machine): (m2: Machine)
    requires WellFormed(m)
    ensures Framed(m, m2) && m2.vram == m.vram
    ensures Word(m2.regs, PC) == 0
    ensures forall rr :: rr != PC ==> Word(m2.regs, rr) == Word(m.regs, rr)
  {
    m.(regs := SetWord(m.regs, PC, 0))
  }
}

=== FILE: memory.dfy ===
/** The address router `GBVirtualMemory` and the video memory it routes to.
    Reads are pure lookups over the boot image and the video memory contents;
    writes update the 8 KiB video memory array of the `Gpu` in place. */
module Memory {
  import opened Bits
  import opened Faults

  const BootRomLength: nat := 0x100
  const VramLength: nat := 0x2000

  /** The faults an access through the router can raise. */
  predicate IsAccessFault(f: Fault)
  {
    f.ReadFault? || f.WriteFault? || f.OutOfBounds?
  }

  /** `addr & 0xF000` on a size_t address: the 4 KiB band of its low 16 bits. */
  function Band(addr: nat): (b: nat)
    ensures b % 0x1000 == 0 && b < 0x1_0000
    ensures b <= addr % 0x1_0000 < b + 0x1000
  {
    addr / 0x1000 % 0x10 * 0x1000
  }

  /** `Get8`: the byte the router returns for `addr`, or the fault it raises.
      The band switch routes 0x0xxx to the boot image, 0x8xxx-0x9xxx to video
      memory, 0xExxx-0xFDFF to the video memory mirror, 0xFF26 to a constant 0,
      and everything else falls into the throwing default. */
  function Read8(boot: seq<byte>, vram: seq<byte>, addr: nat): (r: Result<byte>)
    requires |boot| == BootRomLength && |vram| == VramLength
    ensures addr < 0x100 ==> r == Ok(boot[addr])
    ensures 0x100 <= addr < 0x1000 ==> r == Err(OutOfBounds(addr))
    ensures 0x8000 <= addr < 0xA000 ==> r == Ok(vram[addr - 0x8000])
    ensures 0xE000 <= addr < 0xFE00 ==> r == Ok(vram[addr - 0xE000])
    ensures addr == 0xFF26 ==> r == Ok(0)
    ensures r.Ok? <==> addr < 0x100 || 0x8000 <= addr < 0xA000 || 0xE000 <= addr < 0xFE00 || addr == 0xFF26
    ensures r.Err? && 0x1000 <= addr < 0x1_0000 ==> r == Err(ReadFault(addr))
    ensures r.Err? ==> IsAccessFault(r.fault)
  {
    var band := Band(addr);
    if band == 0x0000 then
      if addr < |boot| then Ok(boot[addr]) else Err(OutOfBounds(addr))
    else if band == 0x8000 || band == 0x9000 then
      if addr - 0x8000 < |vram| then Ok(vram[addr - 0x8000]) else Err(OutOfBounds(addr))
    else if band == 0xE000 || band == 0xF000 then
      if addr < 0xFE00 then Ok(vram[addr - 0xE000])
      else if addr == 0xFF26 then Ok(0)  // sound on/off, a placeholder
      else Err(ReadFault(addr))          // no inner case matched: falls into the default
    else
      Err(ReadFault(addr))
  }

  /** `Get16`: the little-endian word made of the bytes at `addr` and `addr + 1`
      (a size_t sum, so it does not wrap). The low byte is read first. */
  function Read16(boot: seq<byte>, vram: seq<byte>, addr: nat): (r: Result<word>)
    requires |boot| == BootRomLength && |vram| == VramLength
    ensures r.Ok? <==> Read8(boot, vram, addr).Ok? && Read8(boot, vram, addr + 1).Ok?
    ensures r.Ok? ==> r.value == Read8(boot, vram, addr).value + 0x100 * Read8(boot, vram, addr + 1).value
    ensures r.Err? ==> IsAccessFault(r.fault)
  {
    match Read8(boot, vram, addr)
    case Err(f) => Err(f)
    case Ok(lo) =>
      match Read8(boot, vram, addr + 1)
      case Err(f) => Err(f)
      case Ok(hi) => Ok(lo + hi * 0x100)
  }

  /** `Set8` on the video memory contents: the new contents and the outcome.
      Only 0x8000-0x9FFF completes; 0xE000-0xFDFF stores into the mirror and then
      falls through to the throwing default, as does 0xFF26; every other
      address throws without a store. */
  function Write8(vram: seq<byte>, addr: word, val: byte): (w: (seq<byte>, Result<()>))
    requires |vram| == VramLength
    ensures |w.0| == VramLength
    ensures w.1.Ok? <==> 0x8000 <= addr < 0xA000
    ensures w.1.Err? ==> w.1 == Err(WriteFault(addr))
    ensures 0x8000 <= addr < 0xA000 ==> w.0 == vram[addr - 0x8000 := val]
    ensures 0xE000 <= addr < 0xFE00 ==> w.0 == vram[addr - 0xE000 := val]
    ensures !(0x8000 <= addr < 0xA000 || 0xE000 <= addr < 0xFE00) ==> w.0 == vram
  {
    var band := Band(addr);
    if band == 0x8000 || band == 0x9000 then
      (vram[addr - 0x8000 := val], Ok(()))
    else if band == 0xE000 || band == 0xF000 then
      // both arms of the inner test fall through into the default label
      var v := if addr < 0xFE00 then vram[addr - 0xE000 := val] else vram;
      (v, Err(WriteFault(addr)))
    else
      (vram, Err(WriteFault(addr)))
  }

  /** `Set16`: the low byte at `addr`, then the high byte at `addr + 1` (a uint16_t,
      so it wraps). A failing first store skips the second one. */
  function Write16(vram: seq<byte>, addr: word, val: word): (w: (seq<byte>, Result<()>))
    requires |vram| == VramLength
    ensures |w.0| == VramLength
    ensures w.1.Ok? <==> 0x8000 <= addr < 0x9FFF
    ensures w.1.Err? ==> IsAccessFault(w.1.fault)
    ensures Write8(vram, addr, val % 0x100).1.Err? ==> w == Write8(vram, addr, val % 0x100)
    ensures w.1.Ok? ==> w.0 == vram[addr - 0x8000 := val % 0x100][addr + 1 - 0x8000 := val / 0x100]
    ensures addr == 0x9FFF ==> w == (vram[0x1FFF := val % 0x100], Err(WriteFault(0xA000)))
  {
    var first := Write8(vram, addr, val % 0x100);
    if first.1.Err? then first
    else Write8(first.0, (addr + 1) % 0x1_0000, val / 0x100)
  }

  /** A word written inside video memory reads back, and only its two bytes change. */
  lemma {:induction false} Write16ThenRead16(boot: seq<byte>, vram: seq<byte>, addr: word, val: word)
    requires |boot| == BootRomLength && |vram| == VramLength
    requires 0x8000 <= addr < 0x9FFF
    ensures Write16(vram, addr, val).1 == Ok(())
    ensures Write16(vram, addr, val).0 == vram[addr - 0x8000 := val % 0x100][addr + 1 - 0x8000 := val / 0x100]
    ensures Read16(boot, Write16(vram, addr, val).0, addr) == Ok(val)
    ensures forall i :: 0 <= i < VramLength && i != addr - 0x8000 && i != addr + 1 - 0x8000 ==>
              Write16(vram, addr, val).0[i] == vram[i]
  {
    var v1 := vram[addr - 0x8000 := val % 0x100];
    assert Write8(vram, addr, val % 0x100) == (v1, Ok(()));
    var v2 := v1[addr + 1 - 0x8000 := val / 0x100];
    assert Write8(v1, addr + 1, val / 0x100) == (v2, Ok(()));
    assert Write16(vram, addr, val) == (v2, Ok(()));
    assert Read8(boot, v2, addr) == Ok(val % 0x100);
    assert Read8(boot, v2, addr + 1) == Ok(val / 0x100);
  }

  /** The GPU's video memory: 8 KiB, zero-initialised, mutable in place. */
  class Gpu {
    const vram: array<byte>

    constructor ()
      ensures fresh(vram)
      ensures vram.Length == VramLength
      ensures forall i :: 0 <= i < vram.Length ==> vram[i] == 0
    {
      vram := new byte[VramLength](_ => 0);
    }
  }

  /** The router. It holds the boot image and the GPU; it owns neither. */
  class VirtualMemory {
    const bootRom: seq<byte>
    const gpu: Gpu

    constructor (bootRom: seq<byte>, gpu: Gpu)
      ensures this.bootRom == bootRom && this.gpu == gpu
    {
      this.bootRom := bootRom;
      this.gpu := gpu;
    }

    predicate Valid()
    {
      |bootRom| == BootRomLength && gpu.vram.Length == VramLength
    }

    /** `Get8`: the router's read over the GPU's current video memory. */
    function Get8(addr: nat): (r: Result<byte>)
      requires Valid()
      reads gpu.vram
      ensures r == Read8(bootRom, gpu.vram[..], addr)
    {
      Read8(bootRom, gpu.vram[..], addr)
    }

    /** `Get16`: the router's word read over the GPU's current video memory. */
    function Get16(addr: nat): (r: Result<word>)
      requires Valid()
      reads gpu.vram
      ensures r == Read16(bootRom, gpu.vram[..], addr)
    {
      Read16(bootRom, gpu.vram[..], addr)
    }

    method Set8(addr: word, val: byte) returns (r: Result<()>)
      requires Valid()
      modifies gpu.vram
      ensures (gpu.vram[..], r) == Write8(old(gpu.vram[..]), addr, val)
    {
      var band := Band(addr);
      if band == 0x8000 || band == 0x9000 {
        gpu.vram[addr - 0x8000] := val;
        r := Ok(());
      } else if band == 0xE000 || band == 0xF000 {
        if addr < 0xFE00 {
          gpu.vram[addr - 0xE000] := val;
        }
        r := Err(WriteFault(addr));
      } else {
        r := Err(WriteFault(addr));
      }
    }

    method Set16(addr: word, val: word) returns (r: Result<()>)
      requires Valid()
      modifies gpu.vram
      ensures (gpu.vram[..], r) == Write16(old(gpu.vram[..]), addr, val)
    {
      r := Set8(addr, val % 0x100);
      if r.Ok? {
        r := Set8((addr + 1) % 0x1_0000, val / 0x100);
      }
    }
  }
}

=== FILE: processor.dfy ===
/** `GBCPU`: the register file array, the `optime_` countdown and the
    handlers that mutate them in place. Every method is proved to take the
    machine exactly where the matching function of `Instructions` says. */
module Processor {
  import opened Bits
  import opened Faults
  import opened Registers
  import opened Memory
  import I = Instructions

  class Cpu {
    const mem: VirtualMemory
    /** `registers_[6]`: one word per union cell; byte views go through `Registers`. */
    const registers: array<word>
    var opcode: byte
    var optime: nat

    ghost predicate Valid()
    {
      mem.Valid() && registers.Length == 6 && registers as object != mem.gpu.vram as object
    }

    /** The machine this object stands for. */
    ghost function Snapshot(): (m: I.Machine)
      requires Valid()
      reads this, registers, mem.gpu.vram
      ensures I.WellFormed(m)
    {
      I.Machine(mem.bootRom, registers[..], mem.gpu.vram[..], optime, opcode)
    }

    /** Every register starts at zero and `optime_` at 0. */
    constructor (mem: VirtualMemory)
      requires mem.Valid()
      ensures Valid() && this.mem == mem && fresh(registers)
      ensures forall i :: 0 <= i < 6 ==> registers[i] == 0
      ensures optime == 0
    {
      this.mem := mem;
      registers := new word[6](_ => 0);
      opcode := 0;
      optime := 0;
    }

    // ---- the two views of the register file ----

    function ReadWord(rr: Reg16): word
      requires Valid()
      reads registers
    {
      Word(registers[..], rr)
    }

    function ReadByte(r: Reg8): byte
      requires Valid()
      reads registers
    {
      Byte(registers[..], r)
    }

    method WriteWord(rr: Reg16, w: word)
      requires Valid()
      modifies registers
      ensures registers[..] == SetWord(old(registers[..]), rr, w)
    {
      registers[Slot(rr)] := w;
    }

    method WriteByte(r: Reg8, b: byte)
      requires Valid()
      modifies registers
      ensures registers[..] == SetByte(old(registers[..]), r, b)
    {
      var i := Slot(Pair(r));
      registers[i] := WithByte(registers[i], Half(r), b);
    }

    // ---- fetch and stack helpers ----

    method Push16(val: word) returns (r: Result<()>)
      requires Valid()
      modifies registers, mem.gpu.vram
      ensures I.Step(Snapshot(), r) == I.Push16(old(Snapshot()), val)
    {
      WriteWord(SP, (ReadWord(SP) - 2) % 0x1_0000);
      r := mem.Set16(ReadWord(SP), val);
    }

    method Pop16() returns (r: Result<word>)
      requires Valid()
      modifies registers
      ensures I.Step(Snapshot(), r) == I.Pop16(old(Snapshot()))
    {
      r := mem.Get16(ReadWord(SP));
      if r.Ok? {
        WriteWord(SP, (ReadWord(SP) + 2) % 0x1_0000);
      }
    }

    method Next8() returns (r: Result<byte>)
      requires Valid()
      modifies registers
      ensures I.Step(Snapshot(), r) == I.Next8(old(Snapshot()))
    {
      r := mem.Get8(ReadWord(PC));
      if r.Ok? {
        WriteWord(PC, (ReadWord(PC) + 1) % 0x1_0000);
      }
    }

    method Next16() returns (r: Result<word>)
      requires Valid()
      modifies registers
      ensures I.Step(Snapshot(), r) == I.Next16(old(Snapshot()))
    {
      r := mem.Get16(ReadWord(PC));
      if r.Ok? {
        WriteWord(PC, (ReadWord(PC) + 2) % 0x1_0000);
      }
    }

    // ---- handlers ----

    method Bit(pos: bitIndex, op: byte) returns (cost: nat)
      requires Valid()
      modifies registers
      ensures (Snapshot(), cost) == I.Bit(old(Snapshot()), pos, op)
    {
      WriteByte(A, And8(op, Mask(pos)));
      WriteByte(F, (if ReadByte(A) == 0 then I.ZeroFlag else 0) + I.HalfCarryFlag + I.KeepCarry(ReadByte(F)));
      cost := 2;
    }

    method CallD16() returns (r: Result<nat>)
      requires Valid()
      modifies registers, mem.gpu.vram
      ensures I.Step(Snapshot(), r) == I.CallD16(old(Snapshot()))
    {
      var calladdr := Next16();
      if calladdr.Err? {
        return Err(calladdr.fault);
      }
      var pushed := Push16(ReadWord(PC));
      if pushed.Err? {
        return Err(pushed.fault);
      }
      WriteWord(PC, calladdr.value);
      r := Ok(6);
    }

    method Ei() returns (cost: nat)
      requires Valid()
      ensures (Snapshot(), cost) == I.Ei(Snapshot())
    {
      cost := 1;
    }

    method IncR8(r: Reg8) returns (cost: nat)
      requires Valid()
      modifies registers
      ensures (Snapshot(), cost) == I.IncR8(old(Snapshot()), r)
    {
      ghost var m0 := Snapshot();
      WriteByte(r, (ReadByte(r) + 1) % 0x100);
      ghost var regs := registers[..];
      var f := I.IncFlags(ReadByte(A), ReadByte(r), ReadByte(F));
      I.IncR8Result(m0, r, regs, f);
      WriteByte(F, f);
      assert Snapshot() == m0.(regs := SetByte(regs, F, f));
      cost := 1;
    }

    method JrAr8() returns (r: Result<nat>)
      requires Valid()
      modifies registers
      ensures I.Step(Snapshot(), r) == I.JrAr8(old(Snapshot()))
    {
      var next := Next8();
      if next.Err? {
        return Err(next.fault);
      }
      WriteWord(PC, (ReadWord(PC) + I.Signed(next.value)) % 0x1_0000);
      r := Ok(3);
    }

    method JrCondAr8(cond: bool) returns (r: Result<nat>)
      requires Valid()
      modifies registers
      ensures I.Step(Snapshot(), r) == I.JrCondAr8(old(Snapshot()), cond)
    {
      if cond {
        r := JrAr8();
      } else {
        r := Ok(2);
      }
    }

    method LdAd8R8(src: byte) returns (r: Result<nat>)
      requires Valid()
      modifies registers, mem.gpu.vram
      ensures I.Step(Snapshot(), r) == I.LdAd8R8(old(Snapshot()), src)
    {
      var next := Next8();
      if next.Err? {
        return Err(next.fault);
      }
      var addr: word := 0xFF00 + next.value as int;
      var stored := mem.Set8(addr, src);
      r := Then(stored, 3);
    }

    method LdAr8R8(destAddr: byte, src: byte) returns (r: Result<nat>)
      requires Valid()
      modifies mem.gpu.vram
      ensures I.Step(Snapshot(), r) == I.LdAr8R8(old(Snapshot()), destAddr, src)
    {
      var addr: word := 0xFF00 + destAddr;
      var stored := mem.Set8(addr, src);
      r := Then(stored, 2);
    }

    method LdAr16R8(destAddr: word, src: byte) returns (r: Result<nat>)
      requires Valid()
      modifies mem.gpu.vram
      ensures I.Step(Snapshot(), r) == I.LdAr16R8(old(Snapshot()), destAddr, src)
    {
      var stored := mem.Set8(destAddr, src);
      r := Then(stored, 2);
    }

    method LdR8Ar16(dest: Reg8, srcAddr: word) returns (r: Result<nat>)
      requires Valid()
      modifies registers
      ensures I.Step(Snapshot(), r) == I.LdR8Ar16(old(Snapshot()), dest, srcAddr)
    {
      var v := mem.Get8(srcAddr);
      if v.Err? {
        return Err(v.fault);
      }
      WriteByte(dest, v.value);
      r := Ok(2);
    }

    method LdR8D8(dest: Reg8) returns (r: Result<nat>)
      requires Valid()
      modifies registers
      ensures I.Step(Snapshot(), r) == I.LdR8D8(old(Snapshot()), dest)
    {
      var next := Next8();
      if next.Err? {
        return Err(next.fault);
      }
      WriteByte(dest, next.value);
      r := Ok(2);
    }

    method LdR16D16(dest: Reg16) returns (r: Result<nat>)
      requires Valid()
      modifies registers
      ensures I.Step(Snapshot(), r) == I.LdR16D16(old(Snapshot()), dest)
    {
      var next := Next16();
      if next.Err? {
        return Err(next.fault);
      }
      WriteWord(dest, next.value);
      r := Ok(3);
    }

    method LddAr16D8(destAddr: Reg16, src: byte) returns (r: Result<nat>)
      requires Valid()
      modifies registers, mem.gpu.vram
      ensures I.Step(Snapshot(), r) == I.LddAr16D8(old(Snapshot()), destAddr, src)
    {
      var stored := mem.Set8(ReadWord(destAddr), src);
      if stored.Err? {
        return Err(stored.fault);
      }
      WriteWord(destAddr, (ReadWord(destAddr) - 1) % 0x1_0000);
      r := Ok(2);
    }

    method LddD8Ar16(dest: Reg8, srcAddr: Reg16) returns (r: Result<nat>)
      requires Valid()
      modifies registers
      ensures I.Step(Snapshot(), r) == I.LddD8Ar16(old(Snapshot()), dest, srcAddr)
    {
      ghost var m0 := Snapshot();
      var v := mem.Get8(ReadWord(srcAddr));
      if v.Err? {
        return Err(v.fault);
      }
      WriteByte(dest, v.value);
      ghost var regs := registers[..];
      var addr := (ReadWord(srcAddr) - 1) % 0x1_0000;
      I.LddD8Ar16Result(m0, dest, srcAddr, v.value, regs, addr);
      WriteWord(srcAddr, addr);
      assert Snapshot() == m0.(regs := SetWord(regs, srcAddr, addr));
      r := Ok(2);
    }

    method LdiAr16D8(destAddr: Reg16, src: byte) returns (r: Result<nat>)
      requires Valid()
      modifies registers, mem.gpu.vram
      ensures I.Step(Snapshot(), r) == I.LdiAr16D8(old(Snapshot()), destAddr, src)
    {
      var stored := mem.Set8(ReadWord(destAddr), src);
      if stored.Err? {
        return Err(stored.fault);
      }
      WriteWord(destAddr, (ReadWord(destAddr) + 1) % 0x1_0000);
      r := Ok(2);
    }

    method LdiD8Ar16(dest: Reg8, srcAddr: Reg16) returns (r: Result<nat>)
      requires Valid()
      modifies registers
      ensures I.Step(Snapshot(), r) == I.LdiD8Ar16(old(Snapshot()), dest, srcAddr)
    {
      ghost var m0 := Snapshot();
      var v := mem.Get8(ReadWord(srcAddr));
      if v.Err? {
        return Err(v.fault);
      }
      WriteByte(dest, v.value);
      ghost var regs := registers[..];
      var addr := (ReadWord(srcAddr) + 1) % 0x1_0000;
      I.LdiD8Ar16Result(m0, dest, srcAddr, v.value, regs, addr);
      WriteWord(srcAddr, addr);
      assert Snapshot() == m0.(regs := SetWord(regs, srcAddr, addr));
      r := Ok(2);
    }

    method XorR8(op: byte) returns (cost: nat)
      requires Valid()
      modifies registers
      ensures (Snapshot(), cost) == I.XorR8(old(Snapshot()), op)
    {
      WriteByte(A, Xor8(ReadByte(A), op));
      WriteByte(F, if ReadByte(A) == 0 then I.ZeroFlag else 0);
      cost := 1;
    }

    method CbPrefix() returns (r: Result<nat>)
      requires Valid()
      modifies registers
      ensures I.Step(Snapshot(), r) == I.CbPrefix(old(Snapshot()))
    {
      var next := Next8();
      if next.Err? {
        return Err(next.fault);
      }
      if next.value == 0x7C {
        var cost := Bit(7, ReadByte(H));
        r := Ok(cost);
      } else {
        r := Err(UnknownCbOpcode(next.value));
      }
    }

    /** `Exec_`: dispatch one opcode and return its cost. */
    method Exec(op: byte) returns (r: Result<nat>)
      requires Valid()
      modifies registers, mem.gpu.vram
      ensures I.Step(Snapshot(), r) == I.Exec(old(Snapshot()), op)
    {
      var cost: nat;
      match op
      case 0xCD => r := CallD16();
      case 0xFB => cost := Ei(); r := Ok(cost);
      case 0x0C => cost := IncR8(C); r := Ok(cost);
      case 0x1C => cost := IncR8(E); r := Ok(cost);
      case 0x2C => cost := IncR8(L); r := Ok(cost);
      case 0x3C => cost := IncR8(A); r := Ok(cost);
      case 0x20 => r := JrCondAr8(And8(ReadByte(F), I.ZeroFlag) == 0);
      case 0x01 => r := LdR16D16(BC);
      case 0x11 => r := LdR16D16(DE);
      case 0x21 => r := LdR16D16(HL);
      case 0x31 => r := LdR16D16(SP);
      case 0x0A => r := LdR8Ar16(A, ReadWord(BC));
      case 0x1A => r := LdR8Ar16(A, ReadWord(DE));
      case 0x0E => r := LdR8D8(C);
      case 0x1E => r := LdR8D8(E);
      case 0x2E => r := LdR8D8(L);
      case 0x3E => r := LdR8D8(A);
      case 0x77 => r := LdAr16R8(ReadWord(HL), ReadByte(A));
      case 0xE0 => r := LdAd8R8(ReadByte(A));
      case 0xE2 => r := LdAr8R8(ReadByte(C), ReadByte(A));
      case 0x32 => r := LddAr16D8(HL, ReadByte(A));
      case 0x3A => r := LddD8Ar16(A, HL);
      case 0x22 => r := LdiAr16D8(HL, ReadByte(A));
      case 0x2A => r := LdiD8Ar16(A, HL);
      case 0x00 => cost := Nop(); r := Ok(cost);
      case 0xAF => cost := XorR8(ReadByte(A)); r := Ok(cost);
      case 0xCB => r := CbPrefix();
      case _ => r := Err(UnknownOpcode(op));
    }

    method Nop() returns (cost: nat)
      requires Valid()
      ensures (Snapshot(), cost) == I.Nop(Snapshot())
    {
      cost := 1;
    }

    /** `DoMachineCycle`: fetch and execute only when `optime_` is 0, then count down. */
    method DoMachineCycle() returns (r: Result<()>)
      requires Valid()
      modifies this, registers, mem.gpu.vram
      ensures I.Step(Snapshot(), r) == I.Cycle(old(Snapshot()))
    {
      if optime == 0 {
        var next := Next8();
        if next.Err? {
          return Err(next.fault);
        }
        opcode := next.value;
        var cost := Exec(opcode);
        if cost.Err? {
          return Err(cost.fault);
        }
        optime := optime + cost.value;
      }
      optime := optime - 1;
      r := Ok(());
    }

    /** `Start`: PC := 0. */
    method Start()
      requires Valid()
      modifies registers
      ensures Snapshot() == I.Start(old(Snapshot()))
    {
      WriteWord(PC, 0);
    }
  }
}

=== FILE: registers.dfy ===
/** The register file: six 16-bit union cells, each seen as one word or as two
    bytes `bytes[0]`, `bytes[1]`. The byte order is that of a little-endian host:
    `bytes[0]` is the low byte of the word and `bytes[1]` the high byte. */
module Registers {
  import opened Bits

  /** The six cells, in the order of `registers_[6]`. */
  datatype Reg16 = AF | BC | DE | HL | SP | PC

  /** The byte names bound by the register macros. */
  datatype Reg8 = A | F | B | C | D | E | H | L

  function Slot(rr: Reg16): (i: nat)
    ensures i < 6
  {
    match rr
    case AF => 0
    case BC => 1
    case DE => 2
    case HL => 3
    case SP => 4
    case PC => 5
  }

  /** The cell a byte name lives in. */
  function Pair(r: Reg8): Reg16
  {
    match r
    case A | F => AF
    case B | C => BC
    case D | E => DE
    case H | L => HL
  }

  /** Which element of `bytes[2]` a byte name denotes: A, B, D and H are
      `bytes[0]`, F, C, E and L are `bytes[1]`. */
  function Half(r: Reg8): (i: nat)
    ensures i < 2
  {
    match r
    case A | B | D | H => 0
    case F | C | E | L => 1
  }

  /** `bytes[half]` of a cell holding `w`. */
  function ByteOf(w: word, half: nat): (b: byte)
    requires half < 2
  {
    if half == 0 then w % 0x100 else w / 0x100
  }

  /** The cell after a store of `b` through `bytes[half]`: that byte reads back
      as `b` and the other byte is unchanged. */
  function WithByte(w: word, half: nat, b: byte): (r: word)
    requires half < 2
    ensures ByteOf(r, half) == b
    ensures ByteOf(r, 1 - half) == ByteOf(w, 1 - half)
  {
    if half == 0 then w / 0x100 * 0x100 + b else b * 0x100 + w % 0x100
  }

  predicate IsFile(regs: seq<word>)
  {
    |regs| == 6
  }

  function Word(regs: seq<word>, rr: Reg16): word
    requires IsFile(regs)
  {
    regs[Slot(rr)]
  }

  function Byte(regs: seq<word>, r: Reg8): byte
    requires IsFile(regs)
  {
    ByteOf(regs[Slot(Pair(r))], Half(r))
  }

  lemma SlotInjective(p: Reg16, q: Reg16)
    ensures Slot(p) == Slot(q) <==> p == q
  {
  }

  /** A store through the word view: the word reads back, both of its bytes are
      the bytes of the stored word, and every other cell is unchanged. */
  function SetWord(regs: seq<word>, rr: Reg16, w: word): (res: seq<word>)
    requires IsFile(regs)
    ensures IsFile(res)
    ensures Word(res, rr) == w
    ensures forall q :: q != rr ==> Word(res, q) == Word(regs, q)
    ensures forall r :: Pair(r) == rr ==> Byte(res, r) == ByteOf(w, Half(r))
    ensures forall r :: Pair(r) != rr ==> Byte(res, r) == Byte(regs, r)
  {
    assert forall q :: q != rr ==> Slot(q) != Slot(rr) by {
      forall q { SlotInjective(q, rr); }
    }
    regs[Slot(rr) := w]
  }

  /** A store through a byte view: that byte reads back, every other byte name
      (including the other half of the same cell) is unchanged, and so is every
      other cell. */
  function SetByte(regs: seq<word>, r: Reg8, b: byte): (res: seq<word>)
    requires IsFile(regs)
    ensures IsFile(res)
    ensures Byte(res, r) == b
    ensures forall q :: q != r ==> Byte(res, q) == Byte(regs, q)
    ensures forall rr :: rr != Pair(r) ==> Word(res, rr) == Word(regs, rr)
    ensures Word(res, Pair(r)) == WithByte(Word(regs, Pair(r)), Half(r), b)
  {
    assert forall q :: Pair(q) != Pair(r) ==> Slot(Pair(q)) != Slot(Pair(r)) by {
      forall q { SlotInjective(Pair(q), Pair(r)); }
    }
    regs[Slot(Pair(r)) := WithByte(regs[Slot(Pair(r))], Half(r), b)]
  }

  /** With the little-endian layout, A and F are the low and high bytes of AF, and
      B, D, H are the low bytes (C, E, L the high bytes) of BC, DE, HL. */
  lemma ByteNames(regs: seq<word>)
    requires IsFile(regs)
    ensures Byte(regs, A) == Word(regs, AF) % 0x100 && Byte(regs, F) == Word(regs, AF) / 0x100
    ensures Byte(regs, B) == Word(regs, BC) % 0x100 && Byte(regs, C) == Word(regs, BC) / 0x100
    ensures Byte(regs, D) == Word(regs, DE) % 0x100 && Byte(regs, E) == Word(regs, DE) / 0x100
    ensures Byte(regs, H) == Word(regs, HL) % 0x100 && Byte(regs, L) == Word(regs, HL) / 0x100
  {
  }

  /** The two bytes of a cell determine its word: low + 256 * high. */
  lemma {:induction false} WordFromBytes(regs: seq<word>, r: Reg8, q: Reg8)
    requires IsFile(regs)
    requires Pair(r) == Pair(q) && Half(r) == 0 && Half(q) == 1
    ensures Word(regs, Pair(r)) == Byte(regs, r) + 0x100 * Byte(regs, q)
  {
    var w := Word(regs, Pair(r));
    assert Byte(regs, r) == ByteOf(w, 0);
    assert Byte(regs, q) == ByteOf(w, 1);
  }
}
